=== FILE: README.md ===
# kener-agent reconciliation core, modelled in Dafny

kener-agent is a command-line tool that keeps monitors on a Kener server in step
with YAML definition files in a folder. Its `apply` command works in four steps:

1. It lists the definition files, named `NN-*.yml`, in name order.
2. It reads the `monitors` list of each file.
3. It skips every definition whose tag already exists on the server.
4. It resolves the child references of GROUP monitors, fills in default
   fields, and posts each remaining definition.

Other commands keep named connection profiles ("instances") in a YAML
configuration file. Those commands are `login`, `set-default` and `list`.

This project models that core as pure functions over immutable values:

| file | module | models |
|---|---|---|
| `wrappers.dfy` | `Wrappers` | `Option` and `Result`, standing in for Python's `None` and raised exceptions |
| `values.dfy` | `Values` | decoded YAML/JSON values, dict records, Python truthiness, `dict.get` |
| `types.dfy` | `Types` | the `MonitorStatus`/`MonitorType` string codecs, `Monitor.monitor_from_dict`/`monitor_to_dict`, `Config.from_dict`/`to_dict` |
| `monitors.dfy` | `Monitors` | `apply_monitor_defaults`, `resolve_group_monitors`, `validate_monitor`, the filter and sort of `load_yaml_files_from_folder`, the checks of `load_monitors_from_yaml` |
| `api.dfy` | `Api` | how `monitor_exists`, `get_monitor_by_tag`, `get_monitors` and `create_monitor` classify a server reply |
| `configs.dfy` | `Configs` | `save_config_instance`, `load_config`, `set_default_instance`, `list_instances` |
| `cli.dfy` | `Cli` | the `cmd_apply` loop and the rows of `cmd_list` |

I/O is abstracted into parameters:

- A directory is a `Folder` value, a list of `(name, isFile)` entries.
- A definition file after reading and parsing is a `Document`.
- The configuration file is an `Option<Config>`.
- A server reply is a `Reply` (network error, or status plus body).
- The server seen by one `apply` run is a `Remote` value with three parts:
  - the reply to an existence query for a tag;
  - the lookup used for group children;
  - the reply to a POST.
- The clock is a `now` string: the creation timestamp, already formatted.

Exceptions that the source does not catch become `Failure` values. They stop
the command, because only the top-level dispatcher catches them.

The `apply` command does not work as written, so it is modelled as the
pipeline the code evidently intends: the `monitor.py` helpers are run on each
definition dict and the result is posted. As written, the command breaks in
four places, none of which the model verifies:

- `cli.py` calls four helpers on `KenerAPI`, which defines none of them:
  `load_yaml_files_from_folder`, `load_monitors_from_yaml`,
  `resolve_group_monitors` and `apply_monitor_defaults`.
- It imports `save_instance`, but `config.py` defines `save_config_instance`.
- It indexes the `ConfigInstance` dataclass as if it were a dict.
- It passes a dict to `create_monitor`, which returns without a request for
  anything that is not a `Monitor`. `Api.CreateMonitor` models that guard.

In these places the model follows the code's behaviour:

- A default is applied only when its key is absent (`setdefault`). A key that
  is present keeps its value even if that value is empty or null.
- `monitor_from_dict` errors raised inside `get_monitor_by_tag` and
  `get_monitors` propagate, and so do errors from non-dict definitions or
  group children, and from documents that are not mappings. Each of these
  ends the `apply` run; none of them is skipped.
- `cmd_apply` neither validates definitions nor checks for duplicate tags.

Two facts about the code's behaviour are worth knowing:

- `apply_monitor_defaults` writes the status `"ACTIVE"`, which `MonitorStatus`
  cannot decode. `Types.ActiveStatusRejected` proves that such a record is
  rejected by `monitor_from_dict`.
- `set-default ""` is accepted for an instance named `""`, but the empty
  default then reads back as unset. `Configs.SetDefaultThenLoad` proves this.

## Model

| member | source | states |
|---|---|---|
| Types.StatusName | kener-agent/types.py:5-9 | every status encodes to one of NONE/UP/DEGRADED/DOWN, and that name decodes back to the same status |
| Types.ParseStatus | kener-agent/types.py:5-9 | decoding a string into a status succeeds exactly for the four member names |
| Types.StatusNameOfParse | kener-agent/types.py:5-9 | a name that decodes re-encodes to the same string |
| Types.TypeName | kener-agent/types.py:11-18 | every monitor type encodes to one of the seven names, and that name decodes back to the same type |
| Types.ParseType | kener-agent/types.py:11-18 | decoding a string into a monitor type succeeds exactly for API/PING/DNS/TCP/GROUP/SSL/SQL |
| Types.TypeNameOfParse | kener-agent/types.py:11-18 | a type name that decodes re-encodes to the same string |
| Types.MonitorFromDict | kener-agent/types.py:42-62 | decoding succeeds iff id, name and monitor_type are present and the three enum fields hold member names; a missing id, name or monitor_type is a KeyError in that order; id, name and the monitor type are taken from the dict |
| Types.MonitorFallbacks | kener-agent/types.py:42-62 | when decoding succeeds, each absent optional key takes its fallback ("" for the text fields, cron "* * * * *", counts 1, "NO", status NONE, triggers null, type_data {}) |
| Types.MonitorTakesPresent | kener-agent/types.py:42-62 | when decoding succeeds, every present key other than the three enum fields is copied unchanged, and status and default_status are the decoding of their value or of the "NONE" fallback |
| Types.MonitorFromValue | kener-agent/types.py:42-44 | a value that is not a mapping cannot be decoded; a mapping decodes as a dict |
| Types.MonitorToDict | kener-agent/types.py:64-69 | the dict has one key per dataclass field, and the three enum fields hold their string values |
| Types.MonitorToDictCopiesFields | kener-agent/types.py:64-65 | every field that is not an enum is copied into the dict unchanged |
| Types.MonitorRoundTrip | kener-agent/types.py:42-69 | monitor_from_dict(monitor_to_dict(m)) == m for every monitor |
| Types.ActiveStatusRejected | kener-agent/types.py:5-9 | a record whose status is "ACTIVE" is rejected; when its required keys and type are valid, the error names the status field |
| Types.InstanceToValue | kener-agent/types.py:94-97 | the asdict form of a profile decodes back to the same profile |
| Types.ConfigFromValue | kener-agent/types.py:83-92 | a missing instances key gives no profiles, a missing default gives None, a non-mapping document fails, and each decoded profile is the decoding of its entry |
| Types.InstanceFromValue | kener-agent/types.py:85-88 | a profile decodes only from a mapping with exactly the keys host, port, token and folder |
| Types.ConfigOfDocument | kener-agent/config.py:38-40 | an empty or falsy document reads as `Config()`; a truthy document that is not a mapping is rejected; any other document is decoded by `from_dict` |
| Types.DocumentRoundTrip | kener-agent/config.py:31-40 | what `save_config_instance` writes is read back as the same configuration, the `or {}` step included |
| Types.ConfigToValue | kener-agent/types.py:94-98 | the dict has exactly the keys instances and default, and instances holds the asdict form of every profile |
| Types.ConfigRoundTrip | kener-agent/types.py:83-98 | from_dict(to_dict(c)) == c for every configuration |
| Monitors.SetDefaults | kener-agent/monitor.py:33-34 | setdefault over a table adds exactly the table's keys; present keys keep their values; each absent key gets its table value |
| Monitors.StampCreated | kener-agent/monitor.py:28-31 | created_at is added only when absent, set to the supplied timestamp; every other key is unchanged |
| Monitors.ApplyDefaults | kener-agent/monitor.py:16-34 | the result's keys are the input's plus the defaulted keys and created_at; present keys keep their values, even null or empty ones; absent defaulted keys get their table values |
| Monitors.ApplyDefaultsValues | kener-agent/monitor.py:16-26 | each absent key gets exactly its listed default: cron "* * * * *", both counts 1, default_status "NONE", triggers null, include_degraded_in_downtime "NO", status "ACTIVE", description "" |
| Monitors.ApplyDefaultsIdempotent | kener-agent/monitor.py:28-34 | applying the defaults twice, even with a later clock, equals applying them once |
| Monitors.ChildEntry | kener-agent/monitor.py:123-130 | a resolved child entry has exactly the keys id, tag, name and selected; selected is true and the others are copied from the looked-up monitor |
| Monitors.TaggedChildTags | kener-agent/monitor.py:115-119 | the tags the resolver looks up are truthy, and there are no more of them than children |
| Monitors.Contribution | kener-agent/monitor.py:116-132 | one child contributes a lookup exactly when its tag is truthy, and at most one entry, which has the child-entry shape |
| Monitors.ResolveChildren | kener-agent/monitor.py:114-132 | the loop succeeds iff every child is a dict; the lookup is called exactly for the truthy child tags, in order; there are no more entries than lookups, and no more lookups than children; every entry has the child-entry shape |
| Monitors.ResolveOneChild | kener-agent/monitor.py:115-132 | an untagged child contributes nothing; a tagged child is looked up once and contributes its entry only if the lookup returns a non-empty monitor |
| Monitors.ResolveChildrenAppend | kener-agent/monitor.py:114-132 | resolving a concatenation concatenates the entries and the lookups, so input order is kept and each child contributes independently |
| Monitors.ResolveDropsUnresolved | kener-agent/monitor.py:121-132 | with children A, B and C where only B fails to resolve, the entries are A's and C's, in that order |
| Monitors.ChildReferences | kener-agent/monitor.py:107-112 | the child list is type_data.monitors when that is a list, and empty otherwise |
| Monitors.ResolveGroup | kener-agent/monitor.py:104-134 | a non-GROUP monitor is returned unchanged; a GROUP resolves iff type_data is a dict whose children are dicts; only type_data.monitors changes; type_data is created when absent |
| Monitors.NonListChildrenResolveEmpty | kener-agent/monitor.py:110-112 | a monitors value that is not a list resolves to an empty child list |
| Monitors.ValidateMonitor | kener-agent/monitor.py:141-152 | valid iff the keys tag, name and monitor_type are all present, regardless of their values |
| Monitors.DefinitionNames | kener-agent/monitor.py:73-78 | a name is kept iff it is a regular-file entry matching two digits, "-", anything, ".yml"; when the directory's entry names are distinct, so are the kept names |
| Monitors.NameLeTotal | kener-agent/monitor.py:79 | the name order is total |
| Monitors.NameLeTransitive | kener-agent/monitor.py:79 | the name order is transitive |
| Monitors.InsertName | kener-agent/monitor.py:73-80 | inserting into a sorted list keeps it sorted and adds exactly one occurrence |
| Monitors.SortNames | kener-agent/monitor.py:73-80 | the result is sorted by name and is a permutation of the input |
| Monitors.ListDefinitionFiles | kener-agent/monitor.py:65-80 | a missing path and a non-directory are distinct errors; a directory lists exactly its definition files, sorted by name, and each only once when the directory's entry names are distinct |
| Monitors.ListingExample | kener-agent/monitor.py:73-80 | entries 02-extra.yml, readme.txt, 01-core.yml and extra.yaml list as 01-core.yml then 02-extra.yml |
| Monitors.LoadMonitors | kener-agent/monitor.py:43-59 | an unreadable or empty document, a mapping without monitors, and a non-list monitors all give []; otherwise the list is returned unchanged; a truthy non-mapping document raises exactly when the `"monitors" in` probe succeeds or cannot be evaluated: a list without the string "monitors" and a string without that substring give [], a number or true raises |
| Api.MonitorExists | kener-agent/api.py:32-69 | an empty tag answers false without a request; otherwise the answer is true iff the reply is a 200 whose JSON body is a non-empty list |
| Api.GetMonitorByTag | kener-agent/api.py:71-113 | None for an empty tag (no request), a network error, a non-200 status, malformed JSON, or an empty or non-list body; otherwise the decoding of the first element only, with decode errors raised |
| Api.ExistsIffFetchDecodes | kener-agent/api.py:32-113 | for the same tag and reply, monitor_exists is true iff get_monitor_by_tag gets as far as decoding an element, and both send the same request |
| Api.DecodeAll | kener-agent/api.py:136-139 | decoding a list succeeds iff every element decodes; the results are in order, one per element; a failure is the error of the first element that does not decode |
| Api.GetMonitors | kener-agent/api.py:115-148 | always sends the unfiltered query; None (not []) for any failure or an empty list; otherwise every element decoded, in order |
| Api.FirstOfAllIsByTag | kener-agent/api.py:97-103 | on the same reply, the first monitor get_monitors returns is the one get_monitor_by_tag returns |
| Api.GetMonitorsOfListing | kener-agent/api.py:133-139 | a 200 reply listing the dicts of monitors ms yields exactly ms |
| Api.Submit | kener-agent/api.py:168-185 | the payload is posted, and the creation is reported iff the status is 201; network errors are not raised |
| Api.CreateMonitor | kener-agent/api.py:150-185 | a non-Monitor argument returns before any request; a Monitor is posted and reports success iff the status is 201 |
| Api.CreatePayloadRoundTrip | kener-agent/api.py:158-163 | the payload create_monitor posts decodes back to the monitor it was given |
| Configs.SaveInstance | kener-agent/config.py:11-33 | the named profile becomes the new one, and every other profile is unchanged; the default becomes the name iff set_default is true or the previous default was null or empty, and is unchanged otherwise |
| Configs.LoadConfig | kener-agent/config.py:35-49 | a missing file and an empty profile map are errors; a non-empty name gives that profile or an unknown-instance error; without a name, it succeeds iff the default is set and names a stored profile, and then returns that profile |
| Configs.SetDefaultInstance | kener-agent/config.py:51-62 | a missing file and an unknown name are errors; otherwise the default becomes the name and the profiles are unchanged |
| Configs.ListInstances | kener-agent/config.py:64-73 | a missing file is an error; otherwise the listing holds exactly the stored profiles in asdict form and the default, and it decodes back to the stored configuration |
| Configs.SaveThenLoadByName | kener-agent/config.py:27-46 | a saved profile is what load_config returns for its non-empty name |
| Configs.SaveDefaultThenLoad | kener-agent/config.py:28-49 | a profile saved with --default, or the first profile ever saved, is what load_config returns without a name |
| Configs.SaveKeepsDefault | kener-agent/config.py:28-49 | saving another profile without --default leaves the nameless load unchanged |
| Configs.SetDefaultThenLoad | kener-agent/config.py:47-59 | after set-default, the nameless load returns the chosen profile; if the chosen name is "", it reports that no default is set |
| Configs.EmptyDocumentHasNoInstances | kener-agent/config.py:36-58 | an empty configuration file loads as no instances, so `load_config` reports none defined and `set-default` reports the name unknown |
| Configs.SetDefaultKeepsNamedLoads | kener-agent/config.py:44-59 | set-default does not change what any non-empty name loads |
| Cli.Reconcile | kener-agent/cli.py:41-42 | a definition that is not skipped is reconciled exactly when its group resolution succeeds, fails with the resolver's error otherwise, and then has every defaulted key and created_at among its keys |
| Cli.Prepare | kener-agent/cli.py:31-42 | a definition that is not a dict raises; one whose non-empty tag exists remotely is skipped; any other definition yields exactly its reconciled record, and fails exactly when reconciliation fails |
| Cli.ReconcileResolves | kener-agent/cli.py:41-42 | a definition is reconciled iff its group resolution succeeds; a non-GROUP definition only gains defaults |
| Cli.ReconcileKeepsDefinition | kener-agent/cli.py:41-42 | a reconciled definition keeps every field except type_data, and gains the defaulted keys and created_at |
| Cli.ReconcileFillsDefaults | kener-agent/cli.py:41-42 | a reconciled definition, GROUP or not, holds the table value of every defaulted key it lacked, and the run's timestamp when it had no created_at |
| Cli.ReconcileCarriesResolution | kener-agent/cli.py:41-42 | a reconciled GROUP carries the type_data, and so the resolved child list, that group resolution produced |
| Cli.UntaggedIgnoresQuery | kener-agent/cli.py:32-33 | a definition with a missing or empty tag never consults the existence query and is never skipped: it is submitted whenever its reconciliation succeeds |
| Cli.RunItems | kener-agent/cli.py:31-43 | there are no more submissions than definitions; each is marked created iff its POST answered 201; the run ends without error iff every definition is prepared, and otherwise with the error of the first one that is not |
| Cli.RunOne | kener-agent/cli.py:31-43 | a single definition stops the run with its error, leaves no trace when skipped, or is posted with the verdict of its reply |
| Cli.PreparedIsPosted | kener-agent/cli.py:31-43 | every record the step prepares before any failure is among the submissions, with the verdict of its own reply |
| Cli.UnskippedIsPosted | kener-agent/cli.py:32-43 | a definition that is not skipped (untagged, or a tag the server does not report) and reconciles is posted before the rest is processed; one that does not reconcile stops the run |
| Cli.RunFiles | kener-agent/cli.py:28-30 | an early end comes only from a definition or file error, and a run without error loaded every file |
| Cli.RunFilesStopsAtLoad | kener-agent/cli.py:28-31 | a file that cannot be classified ends the run with its error, after every definition of the earlier files was processed |
| Cli.ApplyFolder | kener-agent/cli.py:26-28 | a folder that cannot be listed ends the run with no submissions; otherwise its definition files are processed |
| Cli.CmdApply | kener-agent/cli.py:17-43 | a config error ends the run before any request; otherwise the chosen folder is processed |
| Cli.ChooseFolder | kener-agent/cli.py:25 | the --folder argument is used when non-empty, and the profile's folder otherwise |
| Cli.FolderArgumentWins | kener-agent/cli.py:25 | with a non-empty --folder, the run is the run over that folder, whatever the profile says |
| Cli.ConfiguredFolderOtherwise | kener-agent/cli.py:25 | without --folder, the run is the run over the profile's folder |
| Cli.ThenAssociative | kener-agent/cli.py:28-43 | sequencing stretches of a run is associative |
| Cli.RunItemsAppend | kener-agent/cli.py:31-43 | processing a concatenation of definitions is processing the parts one after the other |
| Cli.ExistingIsSkipped | kener-agent/cli.py:32-39 | a definition whose non-empty tag the server reports as existing is never submitted, and leaves no trace in the run |
| Cli.SubmissionSources | kener-agent/cli.py:31-43 | the submissions are an order-preserving subsequence of the definitions: each one comes from a distinct, later definition than the previous one |
| Cli.SubmissionsAreReconciled | kener-agent/cli.py:31-43 | each posted record is apply_monitor_defaults(resolve_group_monitors(m)) of a distinct definition m, taken in order, that the server did not report as existing |
| Cli.PostRepliesDoNotSteer | kener-agent/cli.py:41-43 | the records posted, and where the run stops, do not depend on the server's answers to the POSTs |
| Cli.RunFilesFlatten | kener-agent/cli.py:28-31 | when every file loads, the run over the files is the run over all their definitions, in file order, then list order |
| Cli.RowOf | kener-agent/cli.py:69-73 | a row is marked "*" iff its name equals the default |
| Cli.CmdList | kener-agent/cli.py:51-73 | a missing file yields no table; otherwise there is one row per instance, in iteration order, with the profile's host, port and folder, marked "*" iff the name is the default |
| Cli.DefaultMarkedOnce | kener-agent/cli.py:64-73 | at most one row is marked; exactly one is marked iff the default names a stored instance; no instances means no rows |

## Left out

- File, YAML, HTTP and clock I/O are parameters: `Folder`, `Document`, `Option<Config>`, `Reply`, `Remote` and `now`. The following are not modelled:
  - writing the configuration file and creating the configuration directory;
  - the HTTP headers and `urlencode`;
  - the formatting of `now`;
  - `http.client` connection set-up.
- Logging and `tabulate` rendering have no effect on the results and are omitted. `cmd_list` is modelled as its rows.
- `main.py`, `version.py`, `logging_utils.py`, `cmd_login`, `cmd_set_default` and `cmd_version` are thin wrappers and are not part of this model. The configuration operations they call are modelled.
- YAML scalars other than null, booleans, integers, strings, lists and mappings are not modelled: floats, dates and the like.
- Two details of the file-name regex are not modelled: `$` also matching before a trailing newline, and Unicode digits matching `\d`. Names are ASCII without newlines.
- The iteration order of a Python dict is not derived. `cmd_list` takes it as an `order` parameter that must list each instance name once.
- The server's answers are fixed for the duration of one `apply` run. Effects of a create on later existence checks, and idempotence across runs, are out of scope.
- The `isinstance` guards of `apply_monitor_defaults` and `resolve_group_monitors` are not modelled: every record is a dict. The same goes for the `isinstance(..., MonitorType)` branches of `monitor_from_dict`.
- Types.InstanceFromValue: rejects a profile whose host, token or folder is not a string or whose port is not an integer, where `ConfigInstance(**inst)` keeps any value; `Config.from_dict` reports this as `BadInstance`.
- Types.ConfigFromValue: stricter than Python where a profile field or the `default` value has the wrong type. Python's dataclasses accept any value there. The model rejects such a profile as `BadInstance` and a `default` that is neither null nor a string as `BadDefault`, because `Config.default` is modelled as an optional name.
- Api.CreateMonitor: does not model a failing `json.dumps`. Every modelled value is serialisable.
- Configs.LoadConfig: takes the already decoded configuration. The `yaml.safe_load(f) or {}` step is `Types.ConfigOfDocument` and decoding failures belong to `Types.ConfigFromValue`; the configuration operations do not repeat them.
- Cli.CmdApply: as noted above, it models the pipeline `cmd_apply` evidently intends. The lookup for group children is a parameter of `Remote`. It is not derived from `get_monitor_by_tag`, which returns a `Monitor` object where `resolve_group_monitors` expects a dict.
- Cli.CmdApply: one clock reading `now` serves the whole run, while the source reads the clock in each `apply_monitor_defaults` call. `Cli.SubmissionsAreReconciled` therefore gives every record of a run the same `created_at` fallback; a run that crosses a second boundary would stamp later records with a later time.

=== FILE: api.dfy ===
/** The decision rules of the `KenerAPI` client (kener-agent/api.py): how each
    method turns the server's reply into its result. The HTTP transport is
    abstracted into a `Reply` value, and every method reports which request, if
    any, it would have sent. */
module Api {
  import opened Wrappers
  import opened Values
  import opened Types

  /** The response text after `json.loads`: either it is not valid JSON or it
      decodes to a value. */
  datatype Body = Malformed | Json(v: Value)

  /** What the connection yields: a network failure (any exception raised by
      `request`, `getresponse` or `read`), or a status code and body. */
  datatype Reply = NetErr | Response(status: int, body: Body)

  /** The request a method issues: a GET on `/api/monitor`, with the `tag`
      query parameter when one is given, or a POST carrying a JSON payload. */
  datatype Request = Query(tag: Option<Value>) | Post(payload: Record)

  /** A method's result together with the request it sent, if any; `reply`
      arguments below are the server's answer to that request. */
  datatype Exchange<T> = Exchange(sent: Option<Request>, value: T)

  /** A 200 response whose body is a JSON list. */
  predicate ListReply(reply: Reply) {
    reply.Response? && reply.status == 200 && reply.body.Json? && reply.body.v.VList?
  }

  /** The elements of a 200 response holding a non-empty JSON list. */
  predicate NonEmptyListReply(reply: Reply) {
    ListReply(reply) && |reply.body.v.items| > 0
  }

  // ---------------------------------------------------------------------------
  // monitor_exists
  // ---------------------------------------------------------------------------

  /** `monitor_exists(tag)`: an empty tag answers false without a request;
      otherwise the answer is true exactly for a 200 reply holding a non-empty
      list. Network errors, other statuses and malformed JSON answer false. */
  function MonitorExists(tag: Value, reply: Reply): (r: Exchange<bool>)
    ensures !Truthy(tag) ==> r == Exchange(None, false)
    ensures Truthy(tag) ==> r.sent == Some(Query(Some(tag)))
    ensures r.value <==> Truthy(tag) && NonEmptyListReply(reply)
  {
    if !Truthy(tag) then Exchange(None, false)
    else
      var sent := Some(Query(Some(tag)));
      match reply
      case NetErr => Exchange(sent, false)
      case Response(status, body) =>
        if status != 200 then Exchange(sent, false)
        else
          match body
          case Malformed => Exchange(sent, false)
          case Json(v) => Exchange(sent, v.VList? && |v.items| > 0)
  }

  // ---------------------------------------------------------------------------
  // get_monitor_by_tag
  // ---------------------------------------------------------------------------

  /** `get_monitor_by_tag(tag)`: `None` for an empty tag (no request), a
      network error, a non-200 status, malformed JSON, or a body that is not a
      non-empty list; otherwise the decoding of the first element only. A
      decoding error is not caught by the method and is returned as the
      `Failure` it raises. */
  function GetMonitorByTag(tag: Value, reply: Reply): (r: Exchange<Result<Option<Monitor>, DecodeError>>)
    ensures !Truthy(tag) ==> r == Exchange(None, Success(None))
    ensures Truthy(tag) ==> r.sent == Some(Query(Some(tag)))
    ensures !(Truthy(tag) && NonEmptyListReply(reply)) ==> r.value == Success(None)
    ensures Truthy(tag) && NonEmptyListReply(reply) ==>
      match MonitorFromValue(reply.body.v.items[0])
      case Success(m) => r.value == Success(Some(m))
      case Failure(e) => r.value == Failure(e)
  {
    if !Truthy(tag) then Exchange(None, Success(None))
    else
      var sent := Some(Query(Some(tag)));
      match reply
      case NetErr => Exchange(sent, Success(None))
      case Response(status, body) =>
        if status != 200 then Exchange(sent, Success(None))
        else
          match body
          case Malformed => Exchange(sent, Success(None))
          case Json(v) =>
            if v.VList? && |v.items| > 0 then
              match MonitorFromValue(v.items[0])
              case Success(m) => Exchange(sent, Success(Some(m)))
              case Failure(e) => Exchange(sent, Failure(e))
            else Exchange(sent, Success(None))
  }

  /** The two tag queries agree: on the same tag and reply, `monitor_exists`
      is true exactly when `get_monitor_by_tag` gets as far as decoding an
      element, that is, returns a monitor or raises. */
  lemma ExistsIffFetchDecodes(tag: Value, reply: Reply)
    ensures MonitorExists(tag, reply).value <==>
      GetMonitorByTag(tag, reply).value != Success(None)
    ensures MonitorExists(tag, reply).sent == GetMonitorByTag(tag, reply).sent
  {
    if Truthy(tag) && NonEmptyListReply(reply) {
      match MonitorFromValue(reply.body.v.items[0])
      case Success(m) =>
      case Failure(e) =>
    }
  }

  // ---------------------------------------------------------------------------
  // get_monitors
  // ---------------------------------------------------------------------------

  /** Decodes every element in order; the first element that fails stops the
      loop with its error, as the uncaught exception in the source does. */
  function DecodeAll(items: seq<Value>): (r: Result<seq<Monitor>, DecodeError>)
    ensures r.Success? <==> forall i :: 0 <= i < |items| ==> MonitorFromValue(items[i]).Success?
    ensures r.Success? ==> |r.value| == |items|
    ensures r.Success? ==> forall i :: 0 <= i < |items| ==> MonitorFromValue(items[i]) == Success(r.value[i])
    ensures r.Failure? ==>
      exists i :: 0 <= i < |items| && MonitorFromValue(items[i]) == Failure(r.error) &&
        (forall j :: 0 <= j < i ==> MonitorFromValue(items[j]).Success?)
  {
    if items == [] then Success([])
    else
      var first :- MonitorFromValue(items[0]);
      var rest :- DecodeAll(items[1..]);
      Success([first] + rest)
  }

  /** `get_monitors()`: always sends the unfiltered query. `None` (not an
      empty list) for a network error, a non-200 status, malformed JSON, or a
      body that is not a non-empty list; otherwise every element decoded, in
      order. */
  function GetMonitors(reply: Reply): (r: Exchange<Result<Option<seq<Monitor>>, DecodeError>>)
    ensures r.sent == Some(Query(None))
    ensures !NonEmptyListReply(reply) ==> r.value == Success(None)
    ensures NonEmptyListReply(reply) ==>
      match DecodeAll(reply.body.v.items)
      case Success(ms) => r.value == Success(Some(ms))
      case Failure(e) => r.value == Failure(e)
  {
    var sent := Some(Query(None));
    match reply
    case NetErr => Exchange(sent, Success(None))
    case Response(status, body) =>
      if status != 200 then Exchange(sent, Success(None))
      else
        match body
        case Malformed => Exchange(sent, Success(None))
        case Json(v) =>
          if v.VList? && |v.items| > 0 then
            match DecodeAll(v.items)
            case Success(ms) => Exchange(sent, Success(Some(ms)))
            case Failure(e) => Exchange(sent, Failure(e))
          else Exchange(sent, Success(None))
  }

  /** On the same reply, the first monitor `get_monitors` returns is the one
      `get_monitor_by_tag` returns for any non-empty tag. */
  lemma FirstOfAllIsByTag(tag: Value, reply: Reply)
    requires Truthy(tag)
    requires GetMonitors(reply).value.Success? && GetMonitors(reply).value.value.Some?
    ensures GetMonitorByTag(tag, reply).value == Success(Some(GetMonitors(reply).value.value.value[0]))
  {
    var items := reply.body.v.items;
    assert MonitorFromValue(items[0]) == Success(DecodeAll(items).value[0]);
  }

  /** A server listing the dicts of monitors `ms` yields exactly `ms`. */
  lemma GetMonitorsOfListing(ms: seq<Monitor>)
    requires |ms| > 0
    ensures GetMonitors(Response(200, Json(VList(seq(|ms|, i requires 0 <= i < |ms| => VObj(MonitorToDict(ms[i]))))))).value
      == Success(Some(ms))
  {
    var items := seq(|ms|, i requires 0 <= i < |ms| => VObj(MonitorToDict(ms[i])));
    forall i | 0 <= i < |items|
      ensures MonitorFromValue(items[i]) == Success(ms[i])
    {
      MonitorRoundTrip(ms[i]);
    }
    assert DecodeAll(items).value == ms;
  }

  // ---------------------------------------------------------------------------
  // create_monitor
  // ---------------------------------------------------------------------------

  /** What `create_monitor` is handed: a `Monitor` instance, or anything else
      (such as the plain dict the `apply` command passes). */
  datatype CreateArg = MonitorArg(m: Monitor) | RawArg(v: Value)

  /** The outcome the server reports for a POST: only status 201 is a
      creation. */
  predicate IsCreated(reply: Reply) {
    reply.Response? && reply.status == 201
  }

  /** POST of a payload dict; the result is whether the monitor was created.
      Network errors and other statuses are logged, never raised. */
  function Submit(payload: Record, reply: Reply): (r: Exchange<bool>)
    ensures r.sent == Some(Post(payload))
    ensures r.value <==> reply.Response? && reply.status == 201
  {
    Exchange(Some(Post(payload)), IsCreated(reply))
  }

  /** `create_monitor(monitor)`: a non-`Monitor` argument returns before any
      request. For a `Monitor`, the group-resolution and defaults helpers it
      calls return non-dict arguments unchanged (kener-agent/monitor.py:12-14,
      100-102), so the payload is `monitor_to_dict` of the argument itself. */
  function CreateMonitor(arg: CreateArg, reply: Reply): (r: Exchange<bool>)
    ensures arg.RawArg? ==> r == Exchange(None, false)
    ensures arg.MonitorArg? ==> r.sent.Some? && r.sent.value.Post?
    ensures r.value <==> arg.MonitorArg? && IsCreated(reply)
  {
    match arg
    case RawArg(_) => Exchange(None, false)
    case MonitorArg(m) => Submit(MonitorToDict(m), reply)
  }

  /** The payload `create_monitor` posts decodes back to the monitor it was
      given. */
  lemma CreatePayloadRoundTrip(m: Monitor, reply: Reply)
    ensures var r := CreateMonitor(MonitorArg(m), reply);
      r.sent.Some? && r.sent.value.Post? && MonitorFromDict(r.sent.value.payload) == Success(m)
  {
    MonitorRoundTrip(m);
  }
}

=== FILE: cli.dfy ===
/** The `apply` and `list` commands (kener-agent/cli.py).

    `apply` is modelled as the pipeline the code evidently intends: the
    `monitor.py` helpers run on each definition dict and the result is posted.
    As written, cli.py calls `load_yaml_files_from_folder`,
    `load_monitors_from_yaml`, `resolve_group_monitors` and
    `apply_monitor_defaults` on `KenerAPI`, which defines none of them; it
    indexes the `ConfigInstance` returned by `load_config` like a dict; and it
    passes a dict to `create_monitor`, which returns without a request for
    anything that is not a `Monitor` (`Api.CreateMonitor`). None of these is
    verified here.

    The server is a `Remote`: the reply to an existence query for a tag, the
    lookup used for group children, and the reply to a POST. Its answers are
    fixed for the duration of a run. */
module Cli {
  import opened Wrappers
  import opened Values
  import opened Types
  import opened Monitors
  import opened Api
  import opened Configs

  /** The server as seen by one `apply` run. */
  datatype Remote = Remote(query: Value -> Reply, lookup: Lookup, post: Record -> Reply)

  /** What stops an `apply` run: `load_config` raising, or an exception from
      the folder listing, a definition file or a definition. */
  datatype ApplyError = ConfigFailed(configError: ConfigError) | MonitorFailed(monitorError: MonitorError)

  /** One POST: the record sent and whether the server answered 201. */
  datatype Submission = Submission(record: Record, created: bool)

  /** The requests an `apply` run made, in order, and the error that ended it
      early, if any. */
  datatype Run = Run(submitted: seq<Submission>, error: Option<ApplyError>)

  // ---------------------------------------------------------------------------
  // One definition
  // ---------------------------------------------------------------------------

  /** `tag and api.monitor_exists(tag)`: the definition is skipped. */
  predicate Skipped(d: Record, remote: Remote) {
    var tag := Get(d, "tag");
    MonitorExists(tag, remote.query(tag)).value
  }

  /** `apply_monitor_defaults(resolve_group_monitors(monitor))`: the record a
      definition that is not skipped turns into. */
  function Reconcile(d: Record, lookup: Lookup, now: string): (r: Result<Record, MonitorError>)
    ensures r.Success? <==> ResolveGroup(d, lookup).Success?
    ensures r.Failure? ==> r.error == ResolveGroup(d, lookup).error
    ensures r.Success? ==> TableKeys(DefaultsTable) + {"created_at"} <= r.value.Keys
  {
    var resolved :- ResolveGroup(d, lookup);
    Success(ApplyDefaults(resolved, now))
  }

  /** The body of the inner loop for one definition: `None` when it is
      skipped, otherwise the record to post. A definition that is not a dict
      makes `monitor.get` raise. */
  function Prepare(item: Value, remote: Remote, now: string): (r: Result<Option<Record>, MonitorError>)
    ensures !item.VObj? ==> r == Failure(NotADict("monitor"))
    ensures item.VObj? && Skipped(item.fields, remote) ==> r == Success(None)
    ensures item.VObj? && !Skipped(item.fields, remote) ==>
      (r.Success? <==> Reconcile(item.fields, remote.lookup, now).Success?)
    ensures r.Success? && r.value.Some? ==>
      item.VObj? && !Skipped(item.fields, remote) && Reconcile(item.fields, remote.lookup, now) == Success(r.value.value)
    ensures item.VObj? && !Skipped(item.fields, remote) && Reconcile(item.fields, remote.lookup, now).Success? ==>
      r == Success(Some(Reconcile(item.fields, remote.lookup, now).value))
  {
    if !item.VObj? then Failure(NotADict("monitor"))
    else if Skipped(item.fields, remote) then Success(None)
    else
      var record :- Reconcile(item.fields, remote.lookup, now);
      Success(Some(record))
  }

  /** A definition is reconciled exactly when its group resolution
      succeeds, and a definition that is not a GROUP only gains defaults. */
  lemma ReconcileResolves(d: Record, lookup: Lookup, now: string)
    ensures Reconcile(d, lookup, now).Success? <==> ResolveGroup(d, lookup).Success?
    ensures !IsGroup(d) ==> Reconcile(d, lookup, now) == Success(ApplyDefaults(d, now))
  {
  }

  /** A reconciled definition keeps every field it had except `type_data`,
      and gains the defaulted keys and `created_at`. */
  lemma ReconcileKeepsDefinition(d: Record, lookup: Lookup, now: string)
    requires Reconcile(d, lookup, now).Success?
    ensures var r := Reconcile(d, lookup, now).value;
      && d.Keys + TableKeys(DefaultsTable) + {"created_at"} <= r.Keys
      && (forall k :: k in d && k != "type_data" ==> r[k] == d[k])
  {
    var resolved := ResolveGroup(d, lookup).value;
    ResolvedKeepsFields(d, lookup);
    DefaultsKeepFields(d, resolved, now);
  }

  /** A GROUP's resolved `type_data`, and so its resolved child list, is what
      the reconciled record carries. */
  lemma ReconcileCarriesResolution(d: Record, lookup: Lookup, now: string)
    requires IsGroup(d) && Reconcile(d, lookup, now).Success?
    ensures Reconcile(d, lookup, now).value["type_data"] == ResolveGroup(d, lookup).value["type_data"]
  {
    assert "type_data" in ResolveGroup(d, lookup).value;
  }

  /** A reconciled definition, GROUP or not, carries the table value of
      every defaulted key it lacked and the run's timestamp when it had no
      `created_at`. */
  lemma ReconcileFillsDefaults(d: Record, lookup: Lookup, now: string)
    requires Reconcile(d, lookup, now).Success?
    ensures var r := Reconcile(d, lookup, now).value;
      && ("created_at" !in d ==> r["created_at"] == VStr(now))
      && (forall i :: 0 <= i < |DefaultsTable| && DefaultsTable[i].0 !in d ==>
            r[DefaultsTable[i].0] == DefaultsTable[i].1)
  {
    var resolved := ResolveGroup(d, lookup).value;
    ResolvedAddsOnlyTypeData(d, lookup);
    TableAvoidsTypeData();
    DefaultsFillMissing(d, resolved, now);
  }

  /** Group resolution adds no key except `type_data`. */
  lemma ResolvedAddsOnlyTypeData(d: Record, lookup: Lookup)
    requires ResolveGroup(d, lookup).Success?
    ensures forall k :: k !in d && k != "type_data" ==> k !in ResolveGroup(d, lookup).value
  {
  }

  /** The defaults table never names `type_data`. */
  lemma TableAvoidsTypeData()
    ensures forall i :: 0 <= i < |DefaultsTable| ==> DefaultsTable[i].0 != "type_data"
  {
  }

  lemma DefaultsFillMissing(d: Record, resolved: Record, now: string)
    requires forall k :: k !in d && k != "type_data" ==> k !in resolved
    requires forall i :: 0 <= i < |DefaultsTable| ==> DefaultsTable[i].0 != "type_data"
    ensures "created_at" !in d ==> ApplyDefaults(resolved, now)["created_at"] == VStr(now)
    ensures forall i :: 0 <= i < |DefaultsTable| && DefaultsTable[i].0 !in d ==>
      ApplyDefaults(resolved, now)[DefaultsTable[i].0] == DefaultsTable[i].1
  {
    forall i | 0 <= i < |DefaultsTable| && DefaultsTable[i].0 !in d
      ensures ApplyDefaults(resolved, now)[DefaultsTable[i].0] == DefaultsTable[i].1
    {
      assert DefaultsTable[i].0 !in resolved;
    }
  }

  lemma ResolvedKeepsFields(d: Record, lookup: Lookup)
    requires ResolveGroup(d, lookup).Success?
    ensures d.Keys <= ResolveGroup(d, lookup).value.Keys
    ensures forall k :: k in d && k != "type_data" ==> ResolveGroup(d, lookup).value[k] == d[k]
  {
  }

  lemma DefaultsKeepFields(d: Record, resolved: Record, now: string)
    requires d.Keys <= resolved.Keys
    requires forall k :: k in d && k != "type_data" ==> resolved[k] == d[k]
    ensures d.Keys + TableKeys(DefaultsTable) + {"created_at"} <= ApplyDefaults(resolved, now).Keys
    ensures forall k :: k in d && k != "type_data" ==> ApplyDefaults(resolved, now)[k] == d[k]
  {
  }

  /** A definition whose tag is missing or empty never consults the
      existence query and goes on to be resolved and submitted. */
  lemma UntaggedIgnoresQuery(item: Value, remote: Remote, query: Value -> Reply, now: string)
    requires item.VObj? && !Truthy(Get(item.fields, "tag"))
    ensures Prepare(item, remote, now) == Prepare(item, remote.(query := query), now)
    ensures Prepare(item, remote, now).Success? ==> Prepare(item, remote, now).value.Some?
    ensures Reconcile(item.fields, remote.lookup, now).Success? ==>
      Prepare(item, remote, now) == Success(Some(Reconcile(item.fields, remote.lookup, now).value))
  {
  }

  /** In the run, a definition that is not skipped (untagged, or tagged but
      not reported by the server) and that reconciles is posted before the
      rest is processed; one that does not reconcile stops the run. */
  lemma UnskippedIsPosted(item: Value, rest: seq<Value>, remote: Remote, now: string)
    requires item.VObj? && !Skipped(item.fields, remote)
    ensures var run := RunItems([item] + rest, Preparer(remote, now), remote.post);
      var rec := Reconcile(item.fields, remote.lookup, now);
      && (rec.Success? ==>
            run == Then(Run([Submission(rec.value, IsCreated(remote.post(rec.value)))], None),
                        RunItems(rest, Preparer(remote, now), remote.post)))
      && (rec.Failure? ==> run == Run([], Some(MonitorFailed(rec.error))))
  {
    var step := Preparer(remote, now);
    assert step(item) == Prepare(item, remote, now);
    RunItemsAppend([item], rest, step, remote.post);
    RunOne(item, step, remote.post);
  }

  // ---------------------------------------------------------------------------
  // The loops
  // ---------------------------------------------------------------------------

  /** Sequencing of two stretches of a run: an error in the first ends it. */
  function Then(a: Run, b: Run): (r: Run)
    ensures a.error.Some? ==> r == a
    ensures a.error.None? ==> r.submitted == a.submitted + b.submitted && r.error == b.error
  {
    if a.error.Some? then a else Run(a.submitted + b.submitted, b.error)
  }

  /** What the inner loop does with one definition: skip it (`None`), post a
      record, or stop with an error. `Prepare` is the step of `cmd_apply`; the
      loops below are stated for any step. */
  type Step = Value -> Result<Option<Record>, MonitorError>

  /** The step of `cmd_apply` against a given server and clock. */
  function Preparer(remote: Remote, now: string): Step {
    item => Prepare(item, remote, now)
  }

  /** The inner loop over the definitions of one file. Every record the step
      yields is posted and the reply's status recorded. */
  function RunItems(items: seq<Value>, step: Step, post: Record -> Reply): (r: Run)
    ensures |r.submitted| <= |items|
    ensures forall k :: 0 <= k < |r.submitted| ==>
      (r.submitted[k].created <==> IsCreated(post(r.submitted[k].record)))
    ensures r.error.Some? ==> r.error.value.MonitorFailed?
    ensures r.error.None? <==> forall i :: 0 <= i < |items| ==> step(items[i]).Success?
    ensures r.error.Some? ==>
      exists i :: 0 <= i < |items| && step(items[i]) == Failure(r.error.value.monitorError) &&
        (forall j :: 0 <= j < i ==> step(items[j]).Success?)
    decreases |items|
  {
    if items == [] then Run([], None)
    else
      match step(items[0])
      case Failure(e) => Run([], Some(MonitorFailed(e)))
      case Success(None) => RunItems(items[1..], step, post)
      case Success(Some(record)) =>
        var created := Submit(record, post(record)).value;
        Then(Run([Submission(record, created)], None), RunItems(items[1..], step, post))
  }

  /** The outer loop over the definition files, in listing order; `load`
      classifies one file. A file that cannot be classified ends the run. */
  function RunFiles(names: seq<string>, load: string -> Result<seq<Value>, MonitorError>,
                    step: Step, post: Record -> Reply): (r: Run)
    ensures r.error.Some? ==> r.error.value.MonitorFailed?
    ensures r.error.None? ==> forall i :: 0 <= i < |names| ==> load(names[i]).Success?
    decreases |names|
  {
    if names == [] then Run([], None)
    else
      match load(names[0])
      case Failure(e) => Run([], Some(MonitorFailed(e)))
      case Success(items) => Then(RunItems(items, step, post), RunFiles(names[1..], load, step, post))
  }

  /** `load_monitors_from_yaml` on the files of one folder. */
  function FolderLoader(folder: string, docs: (string, string) -> Document): string -> Result<seq<Value>, MonitorError> {
    name => LoadMonitors(docs(folder, name))
  }

  /** `args.folder if args.folder else folder`. */
  function ChooseFolder(folderArg: Option<string>, configured: string): (folder: string)
    ensures folderArg.Some? && folderArg.value != "" ==> folder == folderArg.value
    ensures folderArg.None? || folderArg.value == "" ==> folder == configured
  {
    if folderArg.Some? && folderArg.value != "" then folderArg.value else configured
  }

  /** Listing the folder and processing its definition files. */
  function ApplyFolder(folder: string, fs: string -> Folder, docs: (string, string) -> Document,
                       remote: Remote, now: string): (r: Run)
    ensures ListDefinitionFiles(fs(folder)).Failure? ==>
      r == Run([], Some(MonitorFailed(ListDefinitionFiles(fs(folder)).error)))
    ensures ListDefinitionFiles(fs(folder)).Success? ==>
      r == RunFiles(ListDefinitionFiles(fs(folder)).value, FolderLoader(folder, docs), Preparer(remote, now), remote.post)
  {
    match ListDefinitionFiles(fs(folder))
    case Failure(e) => Run([], Some(MonitorFailed(e)))
    case Success(names) => RunFiles(names, FolderLoader(folder, docs), Preparer(remote, now), remote.post)
  }

  /** `cmd_apply`: the profile from `load_config`, the folder from the
      argument or the profile, then every definition of every file. */
  function CmdApply(file: Option<Config>, instance: Option<string>, folderArg: Option<string>,
                    fs: string -> Folder, docs: (string, string) -> Document,
                    remote: Remote, now: string): (r: Run)
    ensures LoadConfig(file, instance).Failure? ==>
      r == Run([], Some(ConfigFailed(LoadConfig(file, instance).error)))
    ensures file.None? ==> r == Run([], Some(ConfigFailed(NoConfig)))
    ensures LoadConfig(file, instance).Success? ==>
      r == ApplyFolder(ChooseFolder(folderArg, LoadConfig(file, instance).value.folder), fs, docs, remote, now)
  {
    match LoadConfig(file, instance)
    case Failure(e) => Run([], Some(ConfigFailed(e)))
    case Success(cfg) => ApplyFolder(ChooseFolder(folderArg, cfg.folder), fs, docs, remote, now)
  }

  // ---------------------------------------------------------------------------
  // Properties of apply
  // ---------------------------------------------------------------------------

  /** `Then` is associative. */
  lemma ThenAssociative(a: Run, b: Run, c: Run)
    ensures Then(Then(a, b), c) == Then(a, Then(b, c))
  {
    if a.error.None? && b.error.None? {
      assert a.submitted + b.submitted + c.submitted == a.submitted + (b.submitted + c.submitted);
    }
  }

  /** Processing a concatenation is processing the parts one after the other. */
  lemma {:induction false} RunItemsAppend(a: seq<Value>, b: seq<Value>, step: Step, post: Record -> Reply)
    ensures RunItems(a + b, step, post) == Then(RunItems(a, step, post), RunItems(b, step, post))
    decreases |a|
  {
    if a == [] {
      assert a + b == b;
    } else {
      assert (a + b)[0] == a[0];
      assert (a + b)[1..] == a[1..] + b;
      RunItemsAppend(a[1..], b, step, post);
      match step(a[0])
      case Failure(e) =>
      case Success(None) =>
      case Success(Some(record)) =>
        var created := Submit(record, post(record)).value;
        ThenAssociative(Run([Submission(record, created)], None), RunItems(a[1..], step, post), RunItems(b, step, post));
    }
  }

  /** One definition on its own: a failing step stops the run, a skipped one
      leaves no trace, and a prepared record is posted with its reply's
      verdict. With `RunItemsAppend` this determines every run. */
  lemma RunOne(x: Value, step: Step, post: Record -> Reply)
    ensures step(x).Failure? ==> RunItems([x], step, post) == Run([], Some(MonitorFailed(step(x).error)))
    ensures step(x) == Success(None) ==> RunItems([x], step, post) == Run([], None)
    ensures step(x).Success? && step(x).value.Some? ==>
      RunItems([x], step, post) == Run([Submission(step(x).value.value, IsCreated(post(step(x).value.value)))], None)
  {
    assert [x][1..] == [];
  }

  /** A definition the step prepares is posted, provided no earlier
      definition stopped the run: the record at index `i` is submission `k`,
      with the verdict of its own reply. */
  lemma {:induction false} PreparedIsPosted(items: seq<Value>, i: int, step: Step, post: Record -> Reply)
    returns (k: int)
    requires 0 <= i < |items|
    requires forall j :: 0 <= j < i ==> step(items[j]).Success?
    requires step(items[i]).Success? && step(items[i]).value.Some?
    ensures var run := RunItems(items, step, post);
      && 0 <= k < |run.submitted|
      && run.submitted[k] == Submission(step(items[i]).value.value, IsCreated(post(step(items[i]).value.value)))
    decreases i
  {
    var record := step(items[i]).value.value;
    if i == 0 {
      k := 0;
    } else {
      var tail := RunItems(items[1..], step, post);
      forall j | 0 <= j < i - 1 ensures step(items[1..][j]).Success? {
        assert items[1..][j] == items[j + 1];
      }
      assert items[1..][i - 1] == items[i];
      var k' := PreparedIsPosted(items[1..], i - 1, step, post);
      match step(items[0])
      case Success(None) =>
        k := k';
      case Success(Some(first)) =>
        var created := Submit(first, post(first)).value;
        assert RunItems(items, step, post).submitted == [Submission(first, created)] + tail.submitted;
        k := k' + 1;
    }
  }

  /** `cmd_apply`'s step skips a definition whose non-empty tag the server
      reports as existing, so it leaves no trace in the run. */
  lemma ExistingIsSkipped(item: Value, rest: seq<Value>, remote: Remote, now: string)
    requires item.VObj? && Truthy(Get(item.fields, "tag"))
    requires NonEmptyListReply(remote.query(Get(item.fields, "tag")))
    ensures Prepare(item, remote, now) == Success(None)
    ensures RunItems([item] + rest, Preparer(remote, now), remote.post) == RunItems(rest, Preparer(remote, now), remote.post)
  {
    assert ([item] + rest)[1..] == rest;
    assert Preparer(remote, now)(item) == Success(None);
  }

  /** `idx` picks, strictly increasing, for each submission the definition
      the step turned into its record. */
  predicate SourcedBy(items: seq<Value>, submitted: seq<Submission>, idx: seq<int>, step: Step) {
    && |idx| == |submitted|
    && (forall k :: 0 <= k < |idx| ==> 0 <= idx[k] < |items|)
    && (forall k, l :: 0 <= k < l < |idx| ==> idx[k] < idx[l])
    && (forall k :: 0 <= k < |idx| ==> step(items[idx[k]]) == Success(Some(submitted[k].record)))
  }

  /** Every submission comes from a distinct definition, in input order, and
      is the record the step made of it. */
  lemma {:induction false} SubmissionSources(items: seq<Value>, step: Step, post: Record -> Reply)
    returns (idx: seq<int>)
    ensures SourcedBy(items, RunItems(items, step, post).submitted, idx, step)
    decreases |items|
  {
    if items == [] {
      idx := [];
    } else {
      var rest := SubmissionSources(items[1..], step, post);
      var tail := RunItems(items[1..], step, post);
      var shifted := Shift(items, tail.submitted, rest, step);
      match step(items[0])
      case Failure(e) =>
        idx := [];
      case Success(None) =>
        idx := shifted;
      case Success(Some(record)) =>
        var created := Submit(record, post(record)).value;
        assert RunItems(items, step, post).submitted == [Submission(record, created)] + tail.submitted;
        idx := Cons(items, record, created, tail.submitted, shifted, step);
    }
  }

  /** Sources within `items[1..]` are sources within `items`, one further. */
  lemma Shift(items: seq<Value>, submitted: seq<Submission>, rest: seq<int>, step: Step) returns (shifted: seq<int>)
    requires |items| > 0 && SourcedBy(items[1..], submitted, rest, step)
    ensures SourcedBy(items, submitted, shifted, step)
    ensures forall k :: 0 <= k < |shifted| ==> shifted[k] >= 1
  {
    shifted := seq(|rest|, k requires 0 <= k < |rest| => rest[k] + 1);
    forall k | 0 <= k < |rest| ensures step(items[shifted[k]]) == Success(Some(submitted[k].record)) {
      assert items[1..][rest[k]] == items[shifted[k]];
    }
  }

  /** A submission made from `items[0]` goes in front. */
  lemma Cons(items: seq<Value>, record: Record, created: bool, submitted: seq<Submission>,
             shifted: seq<int>, step: Step) returns (idx: seq<int>)
    requires |items| > 0 && step(items[0]) == Success(Some(record))
    requires SourcedBy(items, submitted, shifted, step)
    requires forall k :: 0 <= k < |shifted| ==> shifted[k] >= 1
    ensures SourcedBy(items, [Submission(record, created)] + submitted, idx, step)
  {
    idx := [0] + shifted;
    var all := [Submission(record, created)] + submitted;
    assert forall k :: 1 <= k < |idx| ==> idx[k] == shifted[k - 1] && all[k] == submitted[k - 1];
  }

  /** In `cmd_apply`, each posted record is `apply_monitor_defaults(
      resolve_group_monitors(m))` of a distinct definition `m`, taken in
      input order, that is a dict the server did not report as existing. */
  lemma SubmissionsAreReconciled(items: seq<Value>, remote: Remote, now: string)
    returns (idx: seq<int>)
    ensures var run := RunItems(items, Preparer(remote, now), remote.post);
      && SourcedBy(items, run.submitted, idx, Preparer(remote, now))
      && (forall k :: 0 <= k < |idx| ==>
            && items[idx[k]].VObj?
            && !Skipped(items[idx[k]].fields, remote)
            && Reconcile(items[idx[k]].fields, remote.lookup, now) == Success(run.submitted[k].record))
  {
    idx := SubmissionSources(items, Preparer(remote, now), remote.post);
    var run := RunItems(items, Preparer(remote, now), remote.post);
    forall k | 0 <= k < |idx|
      ensures && items[idx[k]].VObj?
              && !Skipped(items[idx[k]].fields, remote)
              && Reconcile(items[idx[k]].fields, remote.lookup, now) == Success(run.submitted[k].record)
    {
      assert Prepare(items[idx[k]], remote, now) == Success(Some(run.submitted[k].record));
    }
  }

  /** The records posted, and where the run stops, do not depend on the
      server's answers to the POSTs. */
  lemma {:induction false} PostRepliesDoNotSteer(items: seq<Value>, step: Step, post: Record -> Reply, other: Record -> Reply)
    ensures var a := RunItems(items, step, post);
      var b := RunItems(items, step, other);
      && |a.submitted| == |b.submitted|
      && (forall k :: 0 <= k < |a.submitted| ==> a.submitted[k].record == b.submitted[k].record)
      && a.error == b.error
    decreases |items|
  {
    if items != [] {
      PostRepliesDoNotSteer(items[1..], step, post, other);
    }
  }

  /** The definitions of a list of files, in file order, when every file
      loads. */
  function AllItems(names: seq<string>, load: string -> Result<seq<Value>, MonitorError>): (items: seq<Value>)
    requires forall i :: 0 <= i < |names| ==> load(names[i]).Success?
    decreases |names|
  {
    if names == [] then []
    else load(names[0]).value + AllItems(names[1..], load)
  }

  /** When every file loads, the run over the files is the run over all their
      definitions concatenated in file order, then list order. */
  lemma {:induction false} RunFilesFlatten(names: seq<string>, load: string -> Result<seq<Value>, MonitorError>,
                                           step: Step, post: Record -> Reply)
    requires forall i :: 0 <= i < |names| ==> load(names[i]).Success?
    ensures RunFiles(names, load, step, post) == RunItems(AllItems(names, load), step, post)
    decreases |names|
  {
    if names != [] {
      assert load(names[0]).Success?;
      var items := load(names[0]).value;
      RunFilesFlatten(names[1..], load, step, post);
      RunItemsAppend(items, AllItems(names[1..], load), step, post);
    }
  }

  /** A file that cannot be classified ends the run with its error, after
      every definition of the files listed before it has been processed. */
  lemma {:induction false} RunFilesStopsAtLoad(names: seq<string>, i: int, load: string -> Result<seq<Value>, MonitorError>,
                                               step: Step, post: Record -> Reply)
    requires 0 <= i < |names|
    requires forall j :: 0 <= j < i ==> load(names[j]).Success?
    requires load(names[i]).Failure?
    ensures RunFiles(names, load, step, post)
         == Then(RunItems(AllItems(names[..i], load), step, post), Run([], Some(MonitorFailed(load(names[i]).error))))
    decreases i
  {
    var stop := Run([], Some(MonitorFailed(load(names[i]).error)));
    if i == 0 {
      assert AllItems(names[..0], load) == [];
    } else {
      forall j | 0 <= j < i - 1 ensures load(names[1..][j]).Success? {
        assert names[1..][j] == names[j + 1];
      }
      assert names[1..][i - 1] == names[i];
      RunFilesStopsAtLoad(names[1..], i - 1, load, step, post);
      var items := load(names[0]).value;
      assert names[..i][0] == names[0];
      assert names[..i][1..] == names[1..][..i - 1];
      assert AllItems(names[..i], load) == items + AllItems(names[1..][..i - 1], load);
      RunItemsAppend(items, AllItems(names[1..][..i - 1], load), step, post);
      ThenAssociative(RunItems(items, step, post), RunItems(AllItems(names[1..][..i - 1], load), step, post), stop);
    }
  }

  /** A non-empty `--folder` argument replaces the profile's folder. */
  lemma FolderArgumentWins(file: Option<Config>, instance: Option<string>, folder: string,
                           fs: string -> Folder, docs: (string, string) -> Document, remote: Remote, now: string)
    requires folder != "" && LoadConfig(file, instance).Success?
    ensures CmdApply(file, instance, Some(folder), fs, docs, remote, now) == ApplyFolder(folder, fs, docs, remote, now)
  {
  }

  /** Without a `--folder` argument the profile's folder is listed. */
  lemma ConfiguredFolderOtherwise(file: Option<Config>, instance: Option<string>, folderArg: Option<string>,
                                  fs: string -> Folder, docs: (string, string) -> Document, remote: Remote, now: string)
    requires folderArg.None? || folderArg.value == ""
    requires LoadConfig(file, instance).Success?
    ensures CmdApply(file, instance, folderArg, fs, docs, remote, now)
         == ApplyFolder(LoadConfig(file, instance).value.folder, fs, docs, remote, now)
  {
  }

  // ---------------------------------------------------------------------------
  // list
  // ---------------------------------------------------------------------------

  /** One table row: the default marker, the name, and the host, port and
      folder read back from the listed instance dict. */
  datatype Row = Row(marker: string, name: string, host: Value, port: Value, folder: Value)

  /** `order` is an iteration order of the names in `keys`: each once. */
  predicate Enumerates(order: seq<string>, keys: set<string>) {
    && (forall i, j :: 0 <= i < j < |order| ==> order[i] != order[j])
    && (forall n :: n in keys ==> n in order)
    && (forall i :: 0 <= i < |order| ==> order[i] in keys)
  }

  /** The row for one listed instance. */
  function RowOf(name: string, inst: map<string, Value>, dflt: Value): (row: Row)
    ensures row.name == name
    ensures row.marker == "*" <==> dflt == VStr(name)
    ensures row.marker == "" <==> dflt != VStr(name)
  {
    Row(if dflt == VStr(name) then "*" else "", name, Get(inst, "host"), Get(inst, "port"), Get(inst, "folder"))
  }

  /** `cmd_list`: one row per instance, in the dict's iteration order, which
      `order` supplies. A missing file is reported and yields no table. */
  function CmdList(file: Option<Config>, order: seq<string>): (r: Result<seq<Row>, ConfigError>)
    requires file.Some? ==> Enumerates(order, file.value.instances.Keys)
    ensures file.None? <==> r == Failure(NoConfig)
    ensures r.Success? ==> |r.value| == |order|
    ensures r.Success? ==> forall i :: 0 <= i < |order| ==>
      var inst := file.value.instances[order[i]];
      && r.value[i].name == order[i]
      && r.value[i].host == VStr(inst.host)
      && r.value[i].port == VInt(inst.port)
      && r.value[i].folder == VStr(inst.folder)
      && (r.value[i].marker == "*" <==> file.value.default == Some(order[i]))
  {
    var info :- ListInstances(file);
    var instances := info.fields["instances"].fields;
    var dflt := info.fields["default"];
    Success(seq(|order|, i requires 0 <= i < |order| => RowOf(order[i], instances[order[i]].fields, dflt)))
  }

  /** Each row is marked exactly when its name is the default. */
  predicate MarksDefault(rows: seq<Row>, order: seq<string>, default: Option<string>) {
    && |rows| == |order|
    && forall i :: 0 <= i < |rows| ==> (rows[i].marker == "*" <==> default == Some(order[i]))
  }

  /** At most one row carries the default marker, and exactly one does when
      the default names a stored instance. With no instances there are no
      rows. */
  lemma DefaultMarkedOnce(c: Config, order: seq<string>)
    requires Enumerates(order, c.instances.Keys)
    ensures var rows := CmdList(Some(c), order).value;
      && (forall i, j :: 0 <= i < j < |rows| ==> !(rows[i].marker == "*" && rows[j].marker == "*"))
      && (c.default.Some? && c.default.value in c.instances <==>
            exists i :: 0 <= i < |rows| && rows[i].marker == "*")
      && (|c.instances| == 0 ==> rows == [])
  {
    var rows := CmdList(Some(c), order).value;
    assert MarksDefault(rows, order, c.default);
    MarkedOnce(rows, order, c.instances.Keys, c.default);
  }

  lemma MarkedOnce(rows: seq<Row>, order: seq<string>, keys: set<string>, default: Option<string>)
    requires Enumerates(order, keys) && MarksDefault(rows, order, default)
    ensures forall i, j :: 0 <= i < j < |rows| ==> !(rows[i].marker == "*" && rows[j].marker == "*")
    ensures default.Some? && default.value in keys <==> exists i :: 0 <= i < |rows| && rows[i].marker == "*"
    ensures |keys| == 0 ==> rows == []
  {
    if default.Some? && default.value in keys {
      var i :| 0 <= i < |order| && order[i] == default.value;
      assert rows[i].marker == "*";
    }
    if |order| > 0 {
      OrderNamesKey(order, keys);
    }
  }

  lemma OrderNamesKey(order: seq<string>, keys: set<string>)
    requires Enumerates(order, keys) && |order| > 0
    ensures |keys| > 0
  {
    assert order[0] in keys;
  }
}

=== FILE: configs.dfy ===
/** Instance-profile management (kener-agent/config.py) as pure functions on
    the configuration file's contents. The file is `None` when it does not
    exist and `Some(config)` once it decodes; reading and writing YAML, the
    configuration directory and `Config.from_dict` failures belong to
    `Types.ConfigFromValue` and are not repeated here. */
module Configs {
  import opened Wrappers
  import opened Values
  import opened Types

  /** The exceptions the functions raise: `FileNotFoundError` for a missing
      file and the three `ValueError`s of `load_config` and
      `set_default_instance`. */
  datatype ConfigError =
    | NoConfig
    | NoInstances
    | UnknownInstance(name: string)
    | NoDefault

  /** `not config.default`: no default, or the empty name. */
  predicate DefaultUnset(c: Config) {
    c.default.None? || c.default.value == ""
  }

  /** The configuration a save starts from: the stored one, or `Config()`. */
  function Current(file: Option<Config>): (c: Config)
    ensures file.None? ==> c.instances == map[] && c.default == None
    ensures file.Some? ==> c == file.value
  {
    if file.Some? then file.value else Config(map[], None)
  }

  // ---------------------------------------------------------------------------
  // save_config_instance
  // ---------------------------------------------------------------------------

  /** `save_config_instance`: stores the profile under `name`, replacing any
      profile of that name, and makes `name` the default when asked to or
      when no default is set. Returns the configuration written back. */
  function SaveInstance(file: Option<Config>, name: string, host: string, port: int,
                        token: string, folder: string, setDefault: bool): (c: Config)
    ensures name in c.instances && c.instances[name] == ConfigInstance(host, port, token, folder)
    ensures forall other :: other != name ==>
      (other in c.instances <==> other in Current(file).instances)
    ensures forall other :: other != name && other in Current(file).instances ==>
      c.instances[other] == Current(file).instances[other]
    ensures setDefault || DefaultUnset(Current(file)) ==> c.default == Some(name)
    ensures !(setDefault || DefaultUnset(Current(file))) ==> c.default == Current(file).default
  {
    var prior := Current(file);
    var instances := prior.instances[name := ConfigInstance(host, port, token, folder)];
    if setDefault || DefaultUnset(prior) then Config(instances, Some(name))
    else Config(instances, prior.default)
  }

  // ---------------------------------------------------------------------------
  // load_config
  // ---------------------------------------------------------------------------

  /** `load_config(instance)`: with a non-empty name, that profile; without
      one, the default profile. */
  function LoadConfig(file: Option<Config>, instance: Option<string>): (r: Result<ConfigInstance, ConfigError>)
    ensures file.None? <==> r == Failure(NoConfig)
    ensures file.Some? && |file.value.instances| == 0 <==> r == Failure(NoInstances)
    ensures r.Success? ==> r.value in file.value.instances.Values
    ensures instance.Some? && instance.value != "" && file.Some? && |file.value.instances| > 0 ==>
      r == (if instance.value in file.value.instances then Success(file.value.instances[instance.value])
            else Failure(UnknownInstance(instance.value)))
    ensures (instance.None? || instance.value == "") && file.Some? && |file.value.instances| > 0 ==>
      (r.Success? <==> !DefaultUnset(file.value) && file.value.default.value in file.value.instances)
    ensures (instance.None? || instance.value == "") && r.Success? ==>
      r.value == file.value.instances[file.value.default.value]
    ensures r.Failure? && r.error.UnknownInstance? ==> instance == Some(r.error.name)
  {
    if file.None? then Failure(NoConfig)
    else
      var c := file.value;
      if |c.instances| == 0 then Failure(NoInstances)
      else if instance.Some? && instance.value != "" then
        if instance.value in c.instances then Success(c.instances[instance.value])
        else Failure(UnknownInstance(instance.value))
      else if DefaultUnset(c) || c.default.value !in c.instances then Failure(NoDefault)
      else Success(c.instances[c.default.value])
  }

  // ---------------------------------------------------------------------------
  // set_default_instance
  // ---------------------------------------------------------------------------

  /** `set_default_instance(name)`: the name must be a stored profile; the
      profiles themselves are untouched. */
  function SetDefaultInstance(file: Option<Config>, name: string): (r: Result<Config, ConfigError>)
    ensures file.None? ==> r == Failure(NoConfig)
    ensures file.Some? ==> (r.Success? <==> name in file.value.instances)
    ensures file.Some? && name !in file.value.instances ==> r == Failure(UnknownInstance(name))
    ensures r.Success? ==> r.value.instances == file.value.instances && r.value.default == Some(name)
  {
    if file.None? then Failure(NoConfig)
    else if name !in file.value.instances then Failure(UnknownInstance(name))
    else Success(file.value.(default := Some(name)))
  }

  // ---------------------------------------------------------------------------
  // list_instances
  // ---------------------------------------------------------------------------

  /** `list_instances()`: the `to_dict` form of the stored configuration. */
  function ListInstances(file: Option<Config>): (r: Result<Value, ConfigError>)
    ensures file.None? <==> r == Failure(NoConfig)
    ensures r.Success? ==> ConfigFromValue(r.value) == Success(file.value)
    ensures r.Success? ==>
      && r.value.VObj? && r.value.fields.Keys == {"instances", "default"}
      && r.value.fields["instances"].VObj?
      && r.value.fields["instances"].fields.Keys == file.value.instances.Keys
      && (forall n :: n in file.value.instances ==>
            r.value.fields["instances"].fields[n] == InstanceToValue(file.value.instances[n]))
      && r.value.fields["default"] == (if file.value.default.Some? then VStr(file.value.default.value) else VNull)
  {
    if file.None? then Failure(NoConfig)
    else
      ConfigRoundTrip(file.value);
      Success(ConfigToValue(file.value))
  }

  // ---------------------------------------------------------------------------
  // Properties across operations
  // ---------------------------------------------------------------------------

  /** A saved profile is what `load_config` returns for its name. */
  lemma SaveThenLoadByName(file: Option<Config>, name: string, host: string, port: int,
                           token: string, folder: string, setDefault: bool)
    requires name != ""
    ensures LoadConfig(Some(SaveInstance(file, name, host, port, token, folder, setDefault)), Some(name))
      == Success(ConfigInstance(host, port, token, folder))
  {
    var c := SaveInstance(file, name, host, port, token, folder, setDefault);
    assert name in c.instances.Keys;
  }

  /** A profile saved with `--default`, or the first profile saved, is what
      `load_config` returns without a name. */
  lemma SaveDefaultThenLoad(file: Option<Config>, name: string, host: string, port: int,
                            token: string, folder: string, setDefault: bool)
    requires name != ""
    requires setDefault || file.None?
    ensures LoadConfig(Some(SaveInstance(file, name, host, port, token, folder, setDefault)), None)
      == Success(ConfigInstance(host, port, token, folder))
  {
    var c := SaveInstance(file, name, host, port, token, folder, setDefault);
    assert name in c.instances.Keys;
  }

  /** Saving a second profile without `--default` keeps an existing default. */
  lemma SaveKeepsDefault(c: Config, name: string, host: string, port: int, token: string, folder: string)
    requires !DefaultUnset(c) && c.default.value in c.instances && c.default.value != name
    ensures LoadConfig(Some(SaveInstance(Some(c), name, host, port, token, folder, false)), None)
      == LoadConfig(Some(c), None)
  {
    var saved := SaveInstance(Some(c), name, host, port, token, folder, false);
    assert c.default.value in saved.instances.Keys;
  }

  /** After `set-default`, loading without a name returns the chosen profile,
      unless the chosen name is empty: the empty name is stored as the
      default but reads back as unset. */
  lemma SetDefaultThenLoad(c: Config, name: string)
    requires name in c.instances
    ensures SetDefaultInstance(Some(c), name).Success?
    ensures name != "" ==>
      LoadConfig(Some(SetDefaultInstance(Some(c), name).value), None) == Success(c.instances[name])
    ensures name == "" ==>
      LoadConfig(Some(SetDefaultInstance(Some(c), name).value), None) == Failure(NoDefault)
  {
    assert |c.instances| > 0 by { assert name in c.instances.Keys; }
  }

  /** Setting the default changes nothing about what any non-empty name
      loads. */
  lemma SetDefaultKeepsNamedLoads(c: Config, name: string, other: Option<string>)
    requires name in c.instances
    requires other.Some? && other.value != ""
    ensures LoadConfig(Some(SetDefaultInstance(Some(c), name).value), other) == LoadConfig(Some(c), other)
  {
    assert |c.instances| > 0 by { assert name in c.instances.Keys; }
  }

  /** An existing but empty (or otherwise falsy) configuration file reads as
      `Config()`: loading reports that no instances are defined, setting a
      default reports the name unknown, and saving starts from no profiles. */
  lemma EmptyDocumentHasNoInstances(doc: Value, instance: Option<string>, name: string)
    requires !Truthy(doc)
    ensures ConfigOfDocument(doc).Success?
    ensures LoadConfig(Some(ConfigOfDocument(doc).value), instance) == Failure(NoInstances)
    ensures SetDefaultInstance(Some(ConfigOfDocument(doc).value), name) == Failure(UnknownInstance(name))
    ensures Current(Some(ConfigOfDocument(doc).value)) == Current(None)
  {
  }
}

=== FILE: monitors.dfy ===
/** The monitor-definition helpers of `kener-agent/monitor.py`: defaulting,
    group resolution, validation, and the discovery and classification of
    definition files. Everything works on plain dict records; the remote lookup
    is a function parameter. */
module Monitors {
  import opened Wrappers
  import opened Values

  /** What the helpers raise. The source does not catch these: they reach the
      command's caller. */
  datatype MonitorError =
    | FolderMissing                // ValueError: the path does not exist
    | NotAFolder                   // ValueError: the path is not a directory
    | NotADict(context: string)    // AttributeError: `.get` on a value that is not a dict
    | DocumentTypeError            // TypeError: a document that is not a mapping is probed for "monitors"

  // ---------------------------------------------------------------------------
  // apply_monitor_defaults
  // ---------------------------------------------------------------------------

  /** The defaults table, in the source's order. */
  const DefaultsTable: seq<(string, Value)> := [
    ("cron", VStr("* * * * *")),
    ("day_degraded_minimum_count", VInt(1)),
    ("day_down_minimum_count", VInt(1)),
    ("default_status", VStr("NONE")),
    ("degraded_trigger", VNull),
    ("down_trigger", VNull),
    ("include_degraded_in_downtime", VStr("NO")),
    ("status", VStr("ACTIVE")),
    ("description", VStr(""))
  ]

  function TableKeys(table: seq<(string, Value)>): set<string> {
    if table == [] then {} else {table[0].0} + TableKeys(table[1..])
  }

  /** A table built from a dict literal names each key once. */
  predicate DistinctKeys(table: seq<(string, Value)>) {
    forall i, j :: 0 <= i < j < |table| ==> table[i].0 != table[j].0
  }

  /** `d.setdefault(key, v)`, keeping only its effect on the dict. */
  function SetDefault(d: Record, key: string, v: Value): Record {
    if key in d then d else d[key := v]
  }

  /** `for key, value in table: d.setdefault(key, value)`. */
  function SetDefaults(d: Record, table: seq<(string, Value)>): (r: Record)
    requires DistinctKeys(table)
    ensures r.Keys == d.Keys + TableKeys(table)
    ensures forall k :: k in d ==> r[k] == d[k]
    ensures forall i :: 0 <= i < |table| && table[i].0 !in d ==> table[i].0 in r && r[table[i].0] == table[i].1
    decreases |table|
  {
    if table == [] then d
    else
      SetDefaults(SetDefault(d, table[0].0, table[0].1), table[1..])
  }

  /** The `created_at` step: the timestamp is written only when the key is
      absent. */
  function StampCreated(d: Record, now: string): (r: Record)
    ensures r.Keys == d.Keys + {"created_at"}
    ensures forall k :: k in d ==> r[k] == d[k]
    ensures "created_at" !in d ==> r["created_at"] == VStr(now)
  {
    if "created_at" in d then d else d["created_at" := VStr(now)]
  }

  /** `apply_monitor_defaults`, with the wall clock replaced by `now` (the
      already formatted creation timestamp). Only absent keys are filled in:
      a key that is present keeps its value even when it is empty or null. */
  function ApplyDefaults(d: Record, now: string): (r: Record)
    ensures r.Keys == d.Keys + TableKeys(DefaultsTable) + {"created_at"}
    ensures forall k :: k in d ==> r[k] == d[k]
    ensures "created_at" !in d ==> r["created_at"] == VStr(now)
    ensures forall i :: 0 <= i < |DefaultsTable| && DefaultsTable[i].0 !in d ==>
      DefaultsTable[i].0 in r && r[DefaultsTable[i].0] == DefaultsTable[i].1
  {
    DefaultsTableFacts();
    ApplyTable(d, now, DefaultsTable)
  }

  /** Each absent defaulted key receives exactly its listed value. */
  lemma ApplyDefaultsValues(d: Record, now: string)
    ensures var r := ApplyDefaults(d, now);
      && ("cron" !in d ==> r["cron"] == VStr("* * * * *"))
      && ("day_degraded_minimum_count" !in d ==> r["day_degraded_minimum_count"] == VInt(1))
      && ("day_down_minimum_count" !in d ==> r["day_down_minimum_count"] == VInt(1))
      && ("default_status" !in d ==> r["default_status"] == VStr("NONE"))
      && ("degraded_trigger" !in d ==> r["degraded_trigger"] == VNull)
      && ("down_trigger" !in d ==> r["down_trigger"] == VNull)
      && ("include_degraded_in_downtime" !in d ==> r["include_degraded_in_downtime"] == VStr("NO"))
      && ("status" !in d ==> r["status"] == VStr("ACTIVE"))
      && ("description" !in d ==> r["description"] == VStr(""))
  {
    TableEntries();
    if "cron" !in d { DefaultAt(d, now, 0); }
    if "day_degraded_minimum_count" !in d { DefaultAt(d, now, 1); }
    if "day_down_minimum_count" !in d { DefaultAt(d, now, 2); }
    if "default_status" !in d { DefaultAt(d, now, 3); }
    if "degraded_trigger" !in d { DefaultAt(d, now, 4); }
    if "down_trigger" !in d { DefaultAt(d, now, 5); }
    if "include_degraded_in_downtime" !in d { DefaultAt(d, now, 6); }
    if "status" !in d { DefaultAt(d, now, 7); }
    if "description" !in d { DefaultAt(d, now, 8); }
  }

  lemma TableEntries()
    ensures |DefaultsTable| == 9
    ensures DefaultsTable[0] == ("cron", VStr("* * * * *"))
    ensures DefaultsTable[1] == ("day_degraded_minimum_count", VInt(1))
    ensures DefaultsTable[2] == ("day_down_minimum_count", VInt(1))
    ensures DefaultsTable[3] == ("default_status", VStr("NONE"))
    ensures DefaultsTable[4] == ("degraded_trigger", VNull)
    ensures DefaultsTable[5] == ("down_trigger", VNull)
    ensures DefaultsTable[6] == ("include_degraded_in_downtime", VStr("NO"))
    ensures DefaultsTable[7] == ("status", VStr("ACTIVE"))
    ensures DefaultsTable[8] == ("description", VStr(""))
  {
  }

  /** The value the table lists at position `i` is the one written. */
  lemma DefaultAt(d: Record, now: string, i: int)
    requires 0 <= i < |DefaultsTable| && DefaultsTable[i].0 !in d
    ensures ApplyDefaults(d, now)[DefaultsTable[i].0] == DefaultsTable[i].1
  {
  }

  /** `apply_monitor_defaults` over an arbitrary defaults table that does not
      mention `created_at`. */
  function ApplyTable(d: Record, now: string, table: seq<(string, Value)>): (r: Record)
    requires DistinctKeys(table)
    requires forall i :: 0 <= i < |table| ==> table[i].0 != "created_at"
    ensures r.Keys == d.Keys + TableKeys(table) + {"created_at"}
    ensures forall k :: k in d ==> r[k] == d[k]
    ensures "created_at" !in d ==> r["created_at"] == VStr(now)
    ensures forall i :: 0 <= i < |table| && table[i].0 !in d ==> table[i].0 in r && r[table[i].0] == table[i].1
  {
    SetDefaults(StampCreated(d, now), table)
  }

  /** The table's keys are distinct and none of them is `created_at`. */
  lemma DefaultsTableFacts()
    ensures DistinctKeys(DefaultsTable)
    ensures forall i :: 0 <= i < |DefaultsTable| ==> DefaultsTable[i].0 != "created_at"
  {
  }

  /** Applying the defaults a second time, even with a later clock, changes
      nothing. */
  lemma ApplyDefaultsIdempotent(d: Record, now: string, later: string)
    ensures ApplyDefaults(ApplyDefaults(d, now), later) == ApplyDefaults(d, now)
  {
    DefaultsTableFacts();
    ApplyTableIdempotent(d, now, later, DefaultsTable);
  }

  lemma ApplyTableIdempotent(d: Record, now: string, later: string, table: seq<(string, Value)>)
    requires DistinctKeys(table)
    requires forall i :: 0 <= i < |table| ==> table[i].0 != "created_at"
    ensures ApplyTable(ApplyTable(d, now, table), later, table) == ApplyTable(d, now, table)
  {
    var once := ApplyTable(d, now, table);
    var twice := ApplyTable(once, later, table);
    assert twice.Keys == once.Keys;
    assert forall k :: k in once ==> twice[k] == once[k];
  }

  // ---------------------------------------------------------------------------
  // resolve_group_monitors
  // ---------------------------------------------------------------------------

  /** The remote lookup by tag: a monitor dict, or `None` when the tag is not
      found. */
  type Lookup = Value -> Option<Record>

  /** The lookup result is truthy: a non-empty dict. */
  predicate Resolves(lookup: Lookup, tag: Value) {
    lookup(tag).Some? && |lookup(tag).value| > 0
  }

  /** The resolved child entry built from a looked-up monitor. */
  function ChildEntry(found: Record): (e: Value)
    ensures e.VObj? && e.fields.Keys == {"id", "tag", "name", "selected"}
    ensures e.fields["selected"] == VBool(true)
    ensures e.fields["id"] == Get(found, "id")
    ensures e.fields["tag"] == Get(found, "tag")
    ensures e.fields["name"] == Get(found, "name")
  {
    VObj(map["id" := Get(found, "id"), "tag" := Get(found, "tag"),
             "name" := Get(found, "name"), "selected" := VBool(true)])
  }

  /** The shape of a resolved child entry. */
  predicate IsChildEntry(e: Value) {
    && e.VObj?
    && e.fields.Keys == {"id", "tag", "name", "selected"}
    && e.fields["selected"] == VBool(true)
  }

  /** The resolved child list and, in order, the tags passed to the lookup. */
  datatype Resolution = Resolution(entries: seq<Value>, queried: seq<Value>)

  /** Concatenation of two partial resolutions. */
  function Join(a: Resolution, b: Resolution): Resolution {
    Resolution(a.entries + b.entries, a.queried + b.queried)
  }

  /** Reference definition: the tags the resolver must look up, that is the
      truthy `tag` of each child, in order. */
  function TaggedChildTags(children: seq<Value>): (tags: seq<Value>)
    requires forall i :: 0 <= i < |children| ==> children[i].VObj?
    ensures |tags| <= |children|
    ensures forall k :: 0 <= k < |tags| ==> Truthy(tags[k])
  {
    if children == [] then []
    else
      var tag := Get(children[0].fields, "tag");
      (if Truthy(tag) then [tag] else []) + TaggedChildTags(children[1..])
  }

  predicate AllMappings(children: seq<Value>) {
    forall i :: 0 <= i < |children| ==> children[i].VObj?
  }

  /** What one child dict contributes: nothing when its tag is missing or
      empty; otherwise one lookup, and one entry when the lookup returns a
      non-empty monitor. */
  function Contribution(child: Value, lookup: Lookup): (c: Resolution)
    requires child.VObj?
    ensures c.queried == (if Truthy(Get(child.fields, "tag")) then [Get(child.fields, "tag")] else [])
    ensures |c.entries| <= |c.queried|
    ensures forall k :: 0 <= k < |c.entries| ==> IsChildEntry(c.entries[k])
  {
    var tag := Get(child.fields, "tag");
    if !Truthy(tag) then Resolution([], [])
    else if Resolves(lookup, tag) then Resolution([ChildEntry(lookup(tag).value)], [tag])
    else Resolution([], [tag])
  }

  /** The loop of `resolve_group_monitors` over the child references. A child
      that is not a dict makes `child.get` raise. */
  function ResolveChildren(children: seq<Value>, lookup: Lookup): (r: Result<Resolution, MonitorError>)
    ensures r.Success? <==> AllMappings(children)
    ensures r.Failure? ==> r.error == NotADict("group child")
    ensures r.Success? ==> r.value.queried == TaggedChildTags(children)
    ensures r.Success? ==> |r.value.entries| <= |r.value.queried| <= |children|
    ensures r.Success? ==> forall k :: 0 <= k < |r.value.entries| ==> IsChildEntry(r.value.entries[k])
    decreases |children|
  {
    if children == [] then Success(Resolution([], []))
    else if !children[0].VObj? then Failure(NotADict("group child"))
    else
      var rest :- ResolveChildren(children[1..], lookup);
      Success(Join(Contribution(children[0], lookup), rest))
  }

  /** What one child contributes, by itself. */
  lemma ResolveOneChild(child: Value, lookup: Lookup)
    requires child.VObj?
    ensures var tag := Get(child.fields, "tag");
      ResolveChildren([child], lookup) == Success(
        if !Truthy(tag) then Resolution([], [])
        else if Resolves(lookup, tag) then Resolution([ChildEntry(lookup(tag).value)], [tag])
        else Resolution([], [tag]))
  {
    assert [child][1..] == [];
    var c := Contribution(child, lookup);
    assert Join(c, Resolution([], [])) == c;
  }

  lemma JoinAssociative(x: Resolution, y: Resolution, z: Resolution)
    ensures Join(Join(x, y), z) == Join(x, Join(y, z))
  {
    assert x.entries + y.entries + z.entries == x.entries + (y.entries + z.entries);
    assert x.queried + y.queried + z.queried == x.queried + (y.queried + z.queried);
  }

  /** Resolving a concatenation concatenates the resolutions: entries and
      lookups keep the input order, and each child contributes independently. */
  lemma {:induction false} ResolveChildrenAppend(a: seq<Value>, b: seq<Value>, lookup: Lookup)
    requires AllMappings(a) && AllMappings(b)
    ensures ResolveChildren(a + b, lookup)
         == Success(Join(ResolveChildren(a, lookup).value, ResolveChildren(b, lookup).value))
    decreases |a|
  {
    var rb := ResolveChildren(b, lookup).value;
    if a == [] {
      assert a + b == b;
      assert Join(Resolution([], []), rb) == rb;
    } else {
      assert (a + b)[1..] == a[1..] + b;
      ResolveChildrenAppend(a[1..], b, lookup);
      JoinAssociative(Contribution(a[0], lookup), ResolveChildren(a[1..], lookup).value, rb);
    }
  }

  /** A GROUP over children A, B, C where only B fails to resolve keeps
      exactly the entries for A and C, in that order. */
  lemma ResolveDropsUnresolved(a: Value, b: Value, c: Value, lookup: Lookup)
    requires a.VObj? && b.VObj? && c.VObj?
    requires Truthy(Get(a.fields, "tag")) && Resolves(lookup, Get(a.fields, "tag"))
    requires Truthy(Get(b.fields, "tag")) && !Resolves(lookup, Get(b.fields, "tag"))
    requires Truthy(Get(c.fields, "tag")) && Resolves(lookup, Get(c.fields, "tag"))
    ensures ResolveChildren([a, b, c], lookup).Success?
    ensures ResolveChildren([a, b, c], lookup).value.entries
         == [ChildEntry(lookup(Get(a.fields, "tag")).value), ChildEntry(lookup(Get(c.fields, "tag")).value)]
  {
    ResolveOneChild(a, lookup);
    ResolveOneChild(b, lookup);
    ResolveOneChild(c, lookup);
    ResolveChildrenAppend([b], [c], lookup);
    assert [b] + [c] == [b, c];
    ResolveChildrenAppend([a], [b, c], lookup);
    assert [a] + [b, c] == [a, b, c];
  }

  /** `monitor.get("monitor_type") == "GROUP"`. */
  predicate IsGroup(d: Record) {
    Get(d, "monitor_type") == VStr("GROUP")
  }

  /** `monitor.get("type_data", {})`. */
  function TypeData(d: Record): Value {
    GetOr(d, "type_data", VObj(map[]))
  }

  /** `type_data.get("monitors", [])`, with a non-list replaced by `[]`. */
  function ChildReferences(typeData: map<string, Value>): (children: seq<Value>)
    ensures "monitors" in typeData && typeData["monitors"].VList? ==> children == typeData["monitors"].items
    ensures !("monitors" in typeData && typeData["monitors"].VList?) ==> children == []
  {
    var raw := GetOr(typeData, "monitors", VList([]));
    if raw.VList? then raw.items else []
  }

  /** `resolve_group_monitors`. A non-GROUP monitor is returned as is. For a
      GROUP, `type_data.monitors` is replaced by the resolved child list and
      nothing else changes; `type_data` is created when absent. */
  function ResolveGroup(d: Record, lookup: Lookup): (r: Result<Record, MonitorError>)
    ensures !IsGroup(d) ==> r == Success(d)
    ensures IsGroup(d) ==>
      (r.Success? <==> TypeData(d).VObj? && AllMappings(ChildReferences(TypeData(d).fields)))
    ensures IsGroup(d) && r.Success? ==>
      && r.value.Keys == d.Keys + {"type_data"}
      && (forall k :: k in d && k != "type_data" ==> r.value[k] == d[k])
      && var prior := TypeData(d).fields;
         && r.value["type_data"].VObj?
         && r.value["type_data"].fields.Keys == prior.Keys + {"monitors"}
         && (forall k :: k in prior && k != "monitors" ==> r.value["type_data"].fields[k] == prior[k])
         && r.value["type_data"].fields["monitors"]
            == VList(ResolveChildren(ChildReferences(prior), lookup).value.entries)
  {
    if !IsGroup(d) then Success(d)
    else
      var typeData := TypeData(d);
      if !typeData.VObj? then Failure(NotADict("type_data"))
      else
        var resolved :- ResolveChildren(ChildReferences(typeData.fields), lookup);
        Success(d["type_data" := VObj(typeData.fields["monitors" := VList(resolved.entries)])])
  }

  /** A `monitors` value that is not a list resolves to an empty child list. */
  lemma NonListChildrenResolveEmpty(d: Record, lookup: Lookup)
    requires IsGroup(d) && TypeData(d).VObj?
    requires !("monitors" in TypeData(d).fields && TypeData(d).fields["monitors"].VList?)
    ensures ResolveGroup(d, lookup).Success?
    ensures ResolveGroup(d, lookup).value["type_data"].fields["monitors"] == VList([])
  {
  }

  // ---------------------------------------------------------------------------
  // validate_monitor
  // ---------------------------------------------------------------------------

  const RequiredFields: seq<string> := ["tag", "name", "monitor_type"]

  /** `validate_monitor`: presence of the required keys, not their contents. */
  method ValidateMonitor(d: Record) returns (valid: bool)
    ensures valid <==> "tag" in d && "name" in d && "monitor_type" in d
  {
    var i := 0;
    while i < |RequiredFields|
      invariant 0 <= i <= |RequiredFields|
      invariant forall j :: 0 <= j < i ==> RequiredFields[j] in d
    {
      if RequiredFields[i] !in d {
        return false;
      }
      i := i + 1;
    }
    assert RequiredFields[0] in d && RequiredFields[1] in d && RequiredFields[2] in d;
    return true;
  }

  // ---------------------------------------------------------------------------
  // load_yaml_files_from_folder
  // ---------------------------------------------------------------------------

  /** One directory entry: its name and whether it is a regular file. */
  datatype DirEntry = DirEntry(name: string, isFile: bool)

  /** What a path denotes on disk. */
  datatype Folder = Absent | NotDirectory | Directory(entries: seq<DirEntry>)

  predicate IsDigit(c: char) {
    '0' <= c <= '9'
  }

  /** The file name matches `^\d{2}-.*\.yml$`: two digits, a hyphen, any run
      of characters other than a newline, and the extension `.yml`. */
  predicate IsDefinitionName(name: string) {
    && |name| >= 7
    && IsDigit(name[0]) && IsDigit(name[1]) && name[2] == '-'
    && name[|name| - 4..] == ".yml"
    && forall i :: 3 <= i < |name| - 4 ==> name[i] != '\n'
  }

  predicate IsDefinitionFile(e: DirEntry) {
    e.isFile && IsDefinitionName(e.name)
  }

  /** A directory names each entry once. */
  predicate DistinctEntryNames(entries: seq<DirEntry>) {
    forall i, j :: 0 <= i < j < |entries| ==> entries[i].name != entries[j].name
  }

  predicate DistinctNames(names: seq<string>) {
    forall i, j :: 0 <= i < j < |names| ==> names[i] != names[j]
  }

  /** The names of the definition files among `entries`, in directory order. */
  function DefinitionNames(entries: seq<DirEntry>): (names: seq<string>)
    ensures forall n :: n in names <==> DirEntry(n, true) in entries && IsDefinitionName(n)
    ensures |names| <= |entries|
    ensures DistinctEntryNames(entries) ==> DistinctNames(names)
  {
    if entries == [] then []
    else
      var rest := DefinitionNames(entries[1..]);
      assert entries == [entries[0]] + entries[1..];
      if IsDefinitionFile(entries[0]) then [entries[0].name] + rest else rest
  }

  /** Python's string order: lexicographic by code point, a proper prefix
      first. */
  predicate NameLe(a: string, b: string)
    decreases |a|
  {
    |a| == 0 || (|b| > 0 && (a[0] < b[0] || (a[0] == b[0] && NameLe(a[1..], b[1..]))))
  }

  lemma {:induction false} NameLeTotal(a: string, b: string)
    ensures NameLe(a, b) || NameLe(b, a)
    decreases |a|
  {
    if |a| > 0 && |b| > 0 && a[0] == b[0] {
      NameLeTotal(a[1..], b[1..]);
    }
  }

  lemma {:induction false} NameLeTransitive(a: string, b: string, c: string)
    requires NameLe(a, b) && NameLe(b, c)
    ensures NameLe(a, c)
    decreases |a|
  {
    if |a| > 0 && a[0] == b[0] && b[0] == c[0] {
      NameLeTransitive(a[1..], b[1..], c[1..]);
    }
  }

  predicate SortedNames(s: seq<string>) {
    forall i, j :: 0 <= i < j < |s| ==> NameLe(s[i], s[j])
  }

  /** Inserts `x` into a sorted list. */
  function InsertName(x: string, s: seq<string>): (r: seq<string>)
    requires SortedNames(s)
    ensures SortedNames(r)
    ensures multiset(r) == multiset(s) + multiset{x}
    decreases |s|
  {
    if s == [] then [x]
    else if NameLe(x, s[0]) then
      BelowHead(x, s);
      [x] + s
    else
      var rest := InsertName(x, s[1..]);
      NameLeTotal(x, s[0]);
      assert s == [s[0]] + s[1..];
      HeadBelowInsertion(x, s, rest);
      [s[0]] + rest
  }

  /** A name at most the head of a sorted list is at most all of it. */
  lemma BelowHead(x: string, s: seq<string>)
    requires SortedNames(s) && |s| > 0 && NameLe(x, s[0])
    ensures forall j :: 0 <= j < |s| ==> NameLe(x, s[j])
  {
    forall j | 0 <= j < |s| ensures NameLe(x, s[j]) {
      if j > 0 { NameLeTransitive(x, s[0], s[j]); }
    }
  }

  /** The head of a sorted list is at most every element of the tail with a
      larger name inserted. */
  lemma HeadBelowInsertion(x: string, s: seq<string>, rest: seq<string>)
    requires SortedNames(s) && |s| > 0 && NameLe(s[0], x)
    requires multiset(rest) == multiset(s[1..]) + multiset{x}
    ensures forall k :: 0 <= k < |rest| ==> NameLe(s[0], rest[k])
  {
    forall k | 0 <= k < |rest| ensures NameLe(s[0], rest[k]) {
      assert rest[k] in multiset(rest);
      if rest[k] != x {
        assert rest[k] in multiset(s[1..]);
        var j :| 0 <= j < |s[1..]| && s[1..][j] == rest[k];
        assert s[j + 1] == rest[k];
      }
    }
  }

  /** `sorted(names)`. */
  function SortNames(s: seq<string>): (r: seq<string>)
    ensures SortedNames(r)
    ensures multiset(r) == multiset(s)
    decreases |s|
  {
    if s == [] then []
    else
      assert s == [s[0]] + s[1..];
      InsertName(s[0], SortNames(s[1..]))
  }

  /** `load_yaml_files_from_folder`: the definition files of a directory,
      sorted by name; a missing path or a non-directory raises. */
  function ListDefinitionFiles(folder: Folder): (r: Result<seq<string>, MonitorError>)
    ensures folder.Absent? <==> r == Failure(FolderMissing)
    ensures folder.NotDirectory? <==> r == Failure(NotAFolder)
    ensures folder.Directory? ==> r.Success?
    ensures r.Success? ==> SortedNames(r.value)
    ensures r.Success? ==> multiset(r.value) == multiset(DefinitionNames(folder.entries))
    ensures r.Success? ==> forall n :: n in r.value <==> DirEntry(n, true) in folder.entries && IsDefinitionName(n)
    ensures r.Success? && DistinctEntryNames(folder.entries) ==> DistinctNames(r.value)
  {
    match folder
    case Absent => Failure(FolderMissing)
    case NotDirectory => Failure(NotAFolder)
    case Directory(entries) =>
      var names := SortNames(DefinitionNames(entries));
      PermutationKeepsDistinct(DefinitionNames(entries), names);
      assert forall n :: n in names <==> n in DefinitionNames(entries) by {
        forall n ensures n in names <==> n in DefinitionNames(entries) {
          assert n in names <==> n in multiset(names);
          assert n in DefinitionNames(entries) <==> n in multiset(DefinitionNames(entries));
        }
      }
      Success(names)
  }

  /** A permutation of a list without repeats has no repeats. */
  lemma PermutationKeepsDistinct(s: seq<string>, r: seq<string>)
    requires multiset(r) == multiset(s)
    ensures DistinctNames(s) ==> DistinctNames(r)
  {
    if DistinctNames(s) {
      forall i, j | 0 <= i < j < |r| ensures r[i] != r[j] {
        if r[i] == r[j] {
          TwiceCounted(r, i, j);
          AtMostOnce(s, r[i]);
        }
      }
    }
  }

  /** A name at two positions occurs at least twice. */
  lemma TwiceCounted(r: seq<string>, i: int, j: int)
    requires 0 <= i < j < |r| && r[i] == r[j]
    ensures multiset(r)[r[i]] >= 2
  {
    assert r == r[..i] + [r[i]] + r[i + 1..j] + [r[j]] + r[j + 1..];
  }

  /** In a list without repeats every name occurs at most once. */
  lemma {:induction false} AtMostOnce(s: seq<string>, x: string)
    requires DistinctNames(s)
    ensures multiset(s)[x] <= 1
    decreases |s|
  {
    if s != [] {
      assert s == [s[0]] + s[1..];
      assert DistinctNames(s[1..]) by {
        forall i, j | 0 <= i < j < |s[1..]| ensures s[1..][i] != s[1..][j] {
          assert s[1..][i] == s[i + 1] && s[1..][j] == s[j + 1];
        }
      }
      AtMostOnce(s[1..], x);
      if s[0] == x {
        assert x !in s[1..] by {
          forall k | 0 <= k < |s[1..]| ensures s[1..][k] != x {
            assert s[1..][k] == s[k + 1];
          }
        }
      }
    }
  }

  /** The example of a folder holding two definition files, a text file and a
      file with the `.yaml` extension. */
  lemma ListingExample()
    ensures ListDefinitionFiles(Directory([
      DirEntry("02-extra.yml", true), DirEntry("readme.txt", true),
      DirEntry("01-core.yml", true), DirEntry("extra.yaml", true)]))
      == Success(["01-core.yml", "02-extra.yml"])
  {
    var entries := [DirEntry("02-extra.yml", true), DirEntry("readme.txt", true),
                    DirEntry("01-core.yml", true), DirEntry("extra.yaml", true)];
    ExampleNames();
    assert DefinitionNames(entries) == ["02-extra.yml", "01-core.yml"];
    ExampleOrder();
    assert SortNames(["01-core.yml"]) == ["01-core.yml"];
    assert ["02-extra.yml", "01-core.yml"][1..] == ["01-core.yml"];
  }

  lemma ExampleNames()
    ensures DefinitionNames([DirEntry("02-extra.yml", true), DirEntry("readme.txt", true),
                             DirEntry("01-core.yml", true), DirEntry("extra.yaml", true)])
         == ["02-extra.yml", "01-core.yml"]
  {
    var entries := [DirEntry("02-extra.yml", true), DirEntry("readme.txt", true),
                    DirEntry("01-core.yml", true), DirEntry("extra.yaml", true)];
    ExampleNameTests();
    assert entries[1..] == [DirEntry("readme.txt", true), DirEntry("01-core.yml", true), DirEntry("extra.yaml", true)];
    assert entries[2..] == [DirEntry("01-core.yml", true), DirEntry("extra.yaml", true)];
    assert entries[3..] == [DirEntry("extra.yaml", true)];
    assert DefinitionNames(entries[3..]) == [];
    assert DefinitionNames(entries[2..]) == ["01-core.yml"];
    assert DefinitionNames(entries[1..]) == ["01-core.yml"];
  }

  lemma ExampleNameTests()
    ensures !IsDefinitionName("readme.txt") && !IsDefinitionName("extra.yaml")
    ensures IsDefinitionName("02-extra.yml") && IsDefinitionName("01-core.yml")
  {
    assert !IsDigit('r') && !IsDigit('e');
    assert "02-extra.yml"[8..] == ".yml";
    assert "01-core.yml"[7..] == ".yml";
  }

  lemma ExampleOrder()
    ensures InsertName("02-extra.yml", ["01-core.yml"]) == ["01-core.yml", "02-extra.yml"]
  {
    assert !NameLe("02-extra.yml", "01-core.yml") by {
      assert "02-extra.yml"[0] == "01-core.yml"[0];
      assert "02-extra.yml"[1..][0] > "01-core.yml"[1..][0];
    }
    assert ["01-core.yml"][1..] == [];
  }

  // ---------------------------------------------------------------------------
  // load_monitors_from_yaml
  // ---------------------------------------------------------------------------

  /** A definition file after reading and YAML parsing. */
  datatype Document = Unreadable | Parsed(root: Value)

  /** `needle in haystack` for strings. */
  predicate ContainsSubstring(haystack: string, needle: string) {
    exists i :: 0 <= i <= |haystack| - |needle| && needle <= haystack[i..]
  }

  /** `"monitors" in config` for a truthy document that is not a dict: list
      membership or substring search; for a number it raises. */
  predicate ProbeHits(root: Value)
    requires !root.VObj?
  {
    match root
    case VList(xs) => VStr("monitors") in xs
    case VStr(s) => ContainsSubstring(s, "monitors")
    case _ => true
  }

  /** `load_monitors_from_yaml`, after the file has been read and parsed. */
  function LoadMonitors(doc: Document): (r: Result<seq<Value>, MonitorError>)
    ensures doc.Unreadable? ==> r == Success([])
    ensures doc.Parsed? && !Truthy(doc.root) ==> r == Success([])
    ensures doc.Parsed? && doc.root.VObj? ==> r.Success?
    ensures doc.Parsed? && doc.root.VObj? && "monitors" in doc.root.fields && doc.root.fields["monitors"].VList?
      ==> r == Success(doc.root.fields["monitors"].items)
    ensures doc.Parsed? && doc.root.VObj? && !("monitors" in doc.root.fields && doc.root.fields["monitors"].VList?)
      ==> r == Success([])
    ensures r.Failure? ==>
      r.error == DocumentTypeError && doc.Parsed? && Truthy(doc.root) && !doc.root.VObj?
    ensures doc.Parsed? && Truthy(doc.root) && !doc.root.VObj? ==> (r.Failure? <==> ProbeHits(doc.root))
    ensures doc.Parsed? && doc.root.VList? && VStr("monitors") !in doc.root.items ==> r == Success([])
    ensures doc.Parsed? && doc.root.VStr? && !ContainsSubstring(doc.root.s, "monitors") ==> r == Success([])
    ensures doc.Parsed? && Truthy(doc.root) && (doc.root.VInt? || doc.root.VBool?) ==> r == Failure(DocumentTypeError)
  {
    match doc
    case Unreadable => Success([])
    case Parsed(root) =>
      if !Truthy(root) then Success([])
      else if root.VObj? then
        if "monitors" !in root.fields then Success([])
        else if !root.fields["monitors"].VList? then Success([])
        else Success(root.fields["monitors"].items)
      else if ProbeHits(root) then Failure(DocumentTypeError)
      else Success([])
  }
}

=== FILE: types.dfy ===
/** The record types of `kener-agent/types.py`: the two monitor enumerations
    with their string codecs, the `Monitor` dataclass with its dict codec, and
    the instance configuration with its dict codec. */
module Types {
  import opened Wrappers
  import opened Values

  // ---------------------------------------------------------------------------
  // Enumerations and their string codecs
  // ---------------------------------------------------------------------------

  /** Health state of a monitor. */
  datatype MonitorStatus = NONE | UP | DEGRADED | DOWN

  /** Kind of check a monitor performs. */
  datatype MonitorType = API | PING | DNS | TCP | GROUP | SSL | SQL

  const StatusNames: set<string> := {"NONE", "UP", "DEGRADED", "DOWN"}

  const TypeNames: set<string> := {"API", "PING", "DNS", "TCP", "GROUP", "SSL", "SQL"}

  /** The enum member's value, `MonitorStatus.X.value`. */
  function StatusName(st: MonitorStatus): (s: string)
    ensures s in StatusNames
    ensures ParseStatus(s) == Some(st)
  {
    match st
    case NONE => "NONE"
    case UP => "UP"
    case DEGRADED => "DEGRADED"
    case DOWN => "DOWN"
  }

  /** `MonitorStatus(s)`: lookup by value; `None` stands for the ValueError. */
  function ParseStatus(s: string): (r: Option<MonitorStatus>)
    ensures r.Some? <==> s in StatusNames
  {
    if s == "NONE" then Some(NONE)
    else if s == "UP" then Some(UP)
    else if s == "DEGRADED" then Some(DEGRADED)
    else if s == "DOWN" then Some(DOWN)
    else None
  }

  /** The enum member's value, `MonitorType.X.value`. */
  function TypeName(t: MonitorType): (s: string)
    ensures s in TypeNames
    ensures ParseType(s) == Some(t)
  {
    match t
    case API => "API"
    case PING => "PING"
    case DNS => "DNS"
    case TCP => "TCP"
    case GROUP => "GROUP"
    case SSL => "SSL"
    case SQL => "SQL"
  }

  /** `MonitorType(s)`: lookup by value; `None` stands for the ValueError. */
  function ParseType(s: string): (r: Option<MonitorType>)
    ensures r.Some? <==> s in TypeNames
  {
    if s == "API" then Some(API)
    else if s == "PING" then Some(PING)
    else if s == "DNS" then Some(DNS)
    else if s == "TCP" then Some(TCP)
    else if s == "GROUP" then Some(GROUP)
    else if s == "SSL" then Some(SSL)
    else if s == "SQL" then Some(SQL)
    else None
  }

  /** Decoding a name and encoding the member gives the name back. */
  lemma StatusNameOfParse(s: string, st: MonitorStatus)
    requires ParseStatus(s) == Some(st)
    ensures StatusName(st) == s
  {
  }

  /** Decoding a name and encoding the member gives the name back. */
  lemma TypeNameOfParse(s: string, t: MonitorType)
    requires ParseType(s) == Some(t)
    ensures TypeName(t) == s
  {
  }

  // ---------------------------------------------------------------------------
  // Monitor
  // ---------------------------------------------------------------------------

  /** The `Monitor` dataclass. The dataclass does not enforce its field
      annotations, so every field that is not an enumeration holds whatever
      value the source dict held. */
  datatype Monitor = Monitor(
    id: Value,
    name: Value,
    description: Value,
    categoryName: Value,
    createdAt: Value,
    updatedAt: Value,
    cron: Value,
    dayDegradedMinimumCount: Value,
    dayDownMinimumCount: Value,
    image: Value,
    includeDegradedInDowntime: Value,
    monitorType: MonitorType,
    status: MonitorStatus,
    tag: Value,
    defaultStatus: MonitorStatus,
    degradedTrigger: Value,
    downTrigger: Value,
    typeData: Value)

  /** Why `monitor_from_dict` raises. */
  datatype DecodeError =
    | NotAMapping                        // the argument cannot be subscripted by key
    | MissingKey(key: string)            // KeyError for a required key
    | InvalidEnum(key: string, v: Value) // ValueError from an enum constructor

  /** The keys `monitor_to_dict` writes, one per dataclass field. */
  const MonitorKeys: set<string> := {
    "id", "name", "description", "category_name", "created_at", "updated_at",
    "cron", "day_degraded_minimum_count", "day_down_minimum_count", "image",
    "include_degraded_in_downtime", "monitor_type", "status", "tag",
    "default_status", "degraded_trigger", "down_trigger", "type_data"
  }

  /** An enum constructor applied to a dict value: only a string can name a
      member. */
  function DecodeStatus(v: Value): Option<MonitorStatus> {
    if v.VStr? then ParseStatus(v.s) else None
  }

  function DecodeType(v: Value): Option<MonitorType> {
    if v.VStr? then ParseType(v.s) else None
  }

  /** `Monitor.monitor_from_dict`. The keyword arguments are evaluated in
      declaration order, so the first failing field decides the error. */
  function MonitorFromDict(d: Record): (r: Result<Monitor, DecodeError>)
    ensures r.Success? <==>
      && "id" in d && "name" in d && "monitor_type" in d
      && DecodeType(d["monitor_type"]).Some?
      && DecodeStatus(GetOr(d, "status", VStr("NONE"))).Some?
      && DecodeStatus(GetOr(d, "default_status", VStr("NONE"))).Some?
    ensures "id" !in d ==> r == Failure(MissingKey("id"))
    ensures "id" in d && "name" !in d ==> r == Failure(MissingKey("name"))
    ensures "id" in d && "name" in d && "monitor_type" !in d ==> r == Failure(MissingKey("monitor_type"))
    ensures r.Success? ==>
      && r.value.id == d["id"] && r.value.name == d["name"]
      && TypeName(r.value.monitorType) == d["monitor_type"].s
  {
    MonitorFromDictBody(d)
  }

  /** Every absent optional key decodes to its fallback value. */
  lemma MonitorFallbacks(d: Record)
    requires MonitorFromDict(d).Success?
    ensures var r := MonitorFromDict(d);
      && ("description" !in d ==> r.value.description == VStr(""))
      && ("category_name" !in d ==> r.value.categoryName == VStr(""))
      && ("created_at" !in d ==> r.value.createdAt == VStr(""))
      && ("updated_at" !in d ==> r.value.updatedAt == VStr(""))
      && ("image" !in d ==> r.value.image == VStr(""))
      && ("tag" !in d ==> r.value.tag == VStr(""))
      && ("cron" !in d ==> r.value.cron == VStr("* * * * *"))
      && ("day_degraded_minimum_count" !in d ==> r.value.dayDegradedMinimumCount == VInt(1))
      && ("day_down_minimum_count" !in d ==> r.value.dayDownMinimumCount == VInt(1))
      && ("include_degraded_in_downtime" !in d ==> r.value.includeDegradedInDowntime == VStr("NO"))
      && ("status" !in d ==> r.value.status == NONE)
      && ("default_status" !in d ==> r.value.defaultStatus == NONE)
      && ("degraded_trigger" !in d ==> r.value.degradedTrigger == VNull)
      && ("down_trigger" !in d ==> r.value.downTrigger == VNull)
      && ("type_data" !in d ==> r.value.typeData == VObj(map[]))
  {
  }

  function MonitorFromDictBody(d: Record): Result<Monitor, DecodeError> {
    if "id" !in d then Failure(MissingKey("id"))
    else if "name" !in d then Failure(MissingKey("name"))
    else if "monitor_type" !in d then Failure(MissingKey("monitor_type"))
    else
      var mtype := DecodeType(d["monitor_type"]);
      var statusValue := GetOr(d, "status", VStr("NONE"));
      var status := DecodeStatus(statusValue);
      var defaultValue := GetOr(d, "default_status", VStr("NONE"));
      var defaultStatus := DecodeStatus(defaultValue);
      if mtype.None? then Failure(InvalidEnum("monitor_type", d["monitor_type"]))
      else if status.None? then Failure(InvalidEnum("status", statusValue))
      else if defaultStatus.None? then Failure(InvalidEnum("default_status", defaultValue))
      else
        Success(Monitor(
          id := d["id"],
          name := d["name"],
          description := GetOr(d, "description", VStr("")),
          categoryName := GetOr(d, "category_name", VStr("")),
          createdAt := GetOr(d, "created_at", VStr("")),
          updatedAt := GetOr(d, "updated_at", VStr("")),
          cron := GetOr(d, "cron", VStr("* * * * *")),
          dayDegradedMinimumCount := GetOr(d, "day_degraded_minimum_count", VInt(1)),
          dayDownMinimumCount := GetOr(d, "day_down_minimum_count", VInt(1)),
          image := GetOr(d, "image", VStr("")),
          includeDegradedInDowntime := GetOr(d, "include_degraded_in_downtime", VStr("NO")),
          monitorType := mtype.value,
          status := status.value,
          tag := GetOr(d, "tag", VStr("")),
          defaultStatus := defaultStatus.value,
          degradedTrigger := Get(d, "degraded_trigger"),
          downTrigger := Get(d, "down_trigger"),
          typeData := GetOr(d, "type_data", VObj(map[]))))
  }

  /** Every present key other than the enumerations is copied as it is, and
      the two statuses are the decoding of their values or of the fallback. */
  lemma MonitorTakesPresent(d: Record)
    requires MonitorFromDict(d).Success?
    ensures var m := MonitorFromDict(d).value;
      && (forall k :: k in d && k in MonitorKeys && k !in {"monitor_type", "status", "default_status"} ==>
            FieldValue(m, k) == d[k])
      && DecodeStatus(GetOr(d, "status", VStr("NONE"))) == Some(m.status)
      && DecodeStatus(GetOr(d, "default_status", VStr("NONE"))) == Some(m.defaultStatus)
  {
    PresentFieldsCopied(d);
    StatusesDecoded(d);
  }

  lemma PresentFieldsCopied(d: Record)
    requires MonitorFromDict(d).Success?
    ensures var m := MonitorFromDict(d).value;
      forall k :: k in d && k in MonitorKeys && k !in {"monitor_type", "status", "default_status"} ==>
        FieldValue(m, k) == d[k]
  {
    var m := MonitorFromDict(d).value;
    PresentText(d);
    PresentSchedule(d);
    PresentTriggers(d);
    CopiedByKey(m, d);
  }

  /** Each present non-enumeration key of `d` holds the matching field of
      `m`. */
  predicate CopiesPresent(m: Monitor, d: Record) {
    && ("id" in d ==> m.id == d["id"])
    && ("name" in d ==> m.name == d["name"])
    && ("description" in d ==> m.description == d["description"])
    && ("category_name" in d ==> m.categoryName == d["category_name"])
    && ("created_at" in d ==> m.createdAt == d["created_at"])
    && ("updated_at" in d ==> m.updatedAt == d["updated_at"])
    && ("cron" in d ==> m.cron == d["cron"])
    && ("day_degraded_minimum_count" in d ==> m.dayDegradedMinimumCount == d["day_degraded_minimum_count"])
    && ("day_down_minimum_count" in d ==> m.dayDownMinimumCount == d["day_down_minimum_count"])
    && ("image" in d ==> m.image == d["image"])
    && ("include_degraded_in_downtime" in d ==> m.includeDegradedInDowntime == d["include_degraded_in_downtime"])
    && ("tag" in d ==> m.tag == d["tag"])
    && ("degraded_trigger" in d ==> m.degradedTrigger == d["degraded_trigger"])
    && ("down_trigger" in d ==> m.downTrigger == d["down_trigger"])
    && ("type_data" in d ==> m.typeData == d["type_data"])
  }

  lemma CopiedByKey(m: Monitor, d: Record)
    requires CopiesPresent(m, d)
    ensures forall k :: k in d && k in MonitorKeys && k !in {"monitor_type", "status", "default_status"} ==>
      FieldValue(m, k) == d[k]
  {
  }

  lemma PresentText(d: Record)
    requires MonitorFromDict(d).Success?
    ensures var m := MonitorFromDict(d).value;
      && ("id" in d ==> m.id == d["id"])
      && ("name" in d ==> m.name == d["name"])
      && ("description" in d ==> m.description == d["description"])
      && ("category_name" in d ==> m.categoryName == d["category_name"])
      && ("image" in d ==> m.image == d["image"])
      && ("tag" in d ==> m.tag == d["tag"])
  {
  }

  lemma PresentSchedule(d: Record)
    requires MonitorFromDict(d).Success?
    ensures var m := MonitorFromDict(d).value;
      && ("created_at" in d ==> m.createdAt == d["created_at"])
      && ("updated_at" in d ==> m.updatedAt == d["updated_at"])
      && ("cron" in d ==> m.cron == d["cron"])
      && ("day_degraded_minimum_count" in d ==> m.dayDegradedMinimumCount == d["day_degraded_minimum_count"])
      && ("day_down_minimum_count" in d ==> m.dayDownMinimumCount == d["day_down_minimum_count"])
  {
  }

  lemma PresentTriggers(d: Record)
    requires MonitorFromDict(d).Success?
    ensures var m := MonitorFromDict(d).value;
      && ("include_degraded_in_downtime" in d ==> m.includeDegradedInDowntime == d["include_degraded_in_downtime"])
      && ("degraded_trigger" in d ==> m.degradedTrigger == d["degraded_trigger"])
      && ("down_trigger" in d ==> m.downTrigger == d["down_trigger"])
      && ("type_data" in d ==> m.typeData == d["type_data"])
  {
  }

  lemma StatusesDecoded(d: Record)
    requires MonitorFromDict(d).Success?
    ensures var m := MonitorFromDict(d).value;
      && DecodeStatus(GetOr(d, "status", VStr("NONE"))) == Some(m.status)
      && DecodeStatus(GetOr(d, "default_status", VStr("NONE"))) == Some(m.defaultStatus)
  {
  }

  /** `monitor_from_dict` applied to an arbitrary decoded JSON value, as the
      API client does with each element of a response list. */
  function MonitorFromValue(v: Value): (r: Result<Monitor, DecodeError>)
    ensures !v.VObj? ==> r == Failure(NotAMapping)
    ensures v.VObj? ==> r == MonitorFromDict(v.fields)
  {
    if v.VObj? then MonitorFromDict(v.fields) else Failure(NotAMapping)
  }

  /** The value a dataclass field holds, looked up by the field's dict key
      (`getattr`); the enumerations yield their string values, as
      `monitor_to_dict` writes them. */
  function FieldValue(m: Monitor, key: string): Value {
    match key
    case "id" => m.id
    case "name" => m.name
    case "description" => m.description
    case "category_name" => m.categoryName
    case "created_at" => m.createdAt
    case "updated_at" => m.updatedAt
    case "cron" => m.cron
    case "day_degraded_minimum_count" => m.dayDegradedMinimumCount
    case "day_down_minimum_count" => m.dayDownMinimumCount
    case "image" => m.image
    case "include_degraded_in_downtime" => m.includeDegradedInDowntime
    case "monitor_type" => VStr(TypeName(m.monitorType))
    case "status" => VStr(StatusName(m.status))
    case "tag" => m.tag
    case "default_status" => VStr(StatusName(m.defaultStatus))
    case "degraded_trigger" => m.degradedTrigger
    case "down_trigger" => m.downTrigger
    case "type_data" => m.typeData
    case _ => VNull
  }

  /** `Monitor.monitor_to_dict`: the instance dict with the three enumeration
      fields replaced by their string values. */
  function MonitorToDict(m: Monitor): (d: Record)
    ensures d.Keys == MonitorKeys
    ensures d["monitor_type"] == VStr(TypeName(m.monitorType))
    ensures d["status"] == VStr(StatusName(m.status))
    ensures d["default_status"] == VStr(StatusName(m.defaultStatus))
  {
    map key | key in MonitorKeys :: FieldValue(m, key)
  }

  /** `monitor_from_dict(monitor_to_dict(m)) == m` for every monitor. */
  lemma MonitorRoundTrip(m: Monitor)
    ensures MonitorFromDict(MonitorToDict(m)) == Success(m)
  {
    var d := MonitorToDict(m);
    MonitorToDictCopiesFields(m);
    assert "id" in d && "name" in d && "monitor_type" in d;
    assert DecodeType(d["monitor_type"]) == Some(m.monitorType);
    assert DecodeStatus(GetOr(d, "status", VStr("NONE"))) == Some(m.status);
    assert DecodeStatus(GetOr(d, "default_status", VStr("NONE"))) == Some(m.defaultStatus);
  }

  /** Every non-enumeration field is copied into the dict unchanged. */
  lemma MonitorToDictCopiesFields(m: Monitor)
    ensures var d := MonitorToDict(m);
      && d["id"] == m.id && d["name"] == m.name && d["description"] == m.description
      && d["category_name"] == m.categoryName && d["created_at"] == m.createdAt
      && d["updated_at"] == m.updatedAt && d["cron"] == m.cron
      && d["day_degraded_minimum_count"] == m.dayDegradedMinimumCount
      && d["day_down_minimum_count"] == m.dayDownMinimumCount && d["image"] == m.image
      && d["include_degraded_in_downtime"] == m.includeDegradedInDowntime
      && d["tag"] == m.tag && d["degraded_trigger"] == m.degradedTrigger
      && d["down_trigger"] == m.downTrigger && d["type_data"] == m.typeData
  {
    CopiesIdentity(m);
    CopiesSchedule(m);
    CopiesThresholds(m);
    CopiesTriggers(m);
  }

  lemma CopiesIdentity(m: Monitor)
    ensures var d := MonitorToDict(m);
      && d["id"] == m.id && d["name"] == m.name && d["description"] == m.description
      && d["category_name"] == m.categoryName && d["tag"] == m.tag
  {
  }

  lemma CopiesSchedule(m: Monitor)
    ensures var d := MonitorToDict(m);
      && d["created_at"] == m.createdAt && d["updated_at"] == m.updatedAt
      && d["cron"] == m.cron && d["image"] == m.image
  {
  }

  lemma CopiesThresholds(m: Monitor)
    ensures var d := MonitorToDict(m);
      && d["day_degraded_minimum_count"] == m.dayDegradedMinimumCount
      && d["day_down_minimum_count"] == m.dayDownMinimumCount
      && d["include_degraded_in_downtime"] == m.includeDegradedInDowntime
  {
  }

  lemma CopiesTriggers(m: Monitor)
    ensures var d := MonitorToDict(m);
      && d["degraded_trigger"] == m.degradedTrigger
      && d["down_trigger"] == m.downTrigger && d["type_data"] == m.typeData
  {
  }

  /** `apply_monitor_defaults` writes the status "ACTIVE", which is not a
      `MonitorStatus` value: such a dict cannot become a `Monitor`. */
  lemma ActiveStatusRejected(d: Record)
    requires "status" in d && d["status"] == VStr("ACTIVE")
    ensures MonitorFromDict(d).Failure?
    ensures "id" in d && "name" in d && "monitor_type" in d && DecodeType(d["monitor_type"]).Some? ==>
      MonitorFromDict(d) == Failure(InvalidEnum("status", VStr("ACTIVE")))
  {
  }

  // ---------------------------------------------------------------------------
  // Instance configuration
  // ---------------------------------------------------------------------------

  /** One named connection profile. */
  datatype ConfigInstance = ConfigInstance(host: string, port: int, token: string, folder: string)

  /** All profiles plus the name of the default one. */
  datatype Config = Config(instances: map<string, ConfigInstance>, default: Option<string>)

  /** Why `Config.from_dict` raises. */
  datatype ConfigDecodeError =
    | DocumentNotAMapping
    | InstancesNotAMapping
    | BadInstance
    | BadDefault

  const InstanceKeys: set<string> := {"host", "port", "token", "folder"}

  /** `ConfigInstance(**inst)`: the mapping must supply exactly the four
      fields. */
  function InstanceFromValue(v: Value): (r: Option<ConfigInstance>)
    ensures r.Some? ==> v.VObj? && v.fields.Keys == InstanceKeys
  {
    if v.VObj? && v.fields.Keys == InstanceKeys
       && v.fields["host"].VStr? && v.fields["port"].VInt?
       && v.fields["token"].VStr? && v.fields["folder"].VStr?
    then Some(ConfigInstance(v.fields["host"].s, v.fields["port"].i, v.fields["token"].s, v.fields["folder"].s))
    else None
  }

  /** `dataclasses.asdict` of one profile. */
  function InstanceToValue(inst: ConfigInstance): (v: Value)
    ensures InstanceFromValue(v) == Some(inst)
  {
    VObj(map["host" := VStr(inst.host), "port" := VInt(inst.port),
             "token" := VStr(inst.token), "folder" := VStr(inst.folder)])
  }

  /** `Config.from_dict`. */
  function ConfigFromValue(data: Value): (r: Result<Config, ConfigDecodeError>)
    ensures data.VObj? && "instances" !in data.fields && r.Success? ==> r.value.instances == map[]
    ensures data.VObj? && "default" !in data.fields && r.Success? ==> r.value.default == None
    ensures !data.VObj? ==> r == Failure(DocumentNotAMapping)
    ensures r.Success? ==>
      && data.VObj?
      && var raw := GetOr(data.fields, "instances", VObj(map[]));
         && raw.VObj?
         && r.value.instances.Keys == raw.fields.Keys
         && forall name :: name in raw.fields ==> InstanceFromValue(raw.fields[name]) == Some(r.value.instances[name])
  {
    if !data.VObj? then Failure(DocumentNotAMapping)
    else
      var raw := GetOr(data.fields, "instances", VObj(map[]));
      var dflt := Get(data.fields, "default");
      if !raw.VObj? then Failure(InstancesNotAMapping)
      else if exists name | name in raw.fields :: InstanceFromValue(raw.fields[name]).None? then
        Failure(BadInstance)
      else if !(dflt.VNull? || dflt.VStr?) then Failure(BadDefault)
      else
        Success(Config(
          map name | name in raw.fields :: InstanceFromValue(raw.fields[name]).value,
          if dflt.VStr? then Some(dflt.s) else None))
  }

  /** `Config.from_dict(yaml.safe_load(f) or {})`: an empty file, or any
      other falsy document, is read as `{}` and so as `Config()`. */
  function ConfigOfDocument(doc: Value): (r: Result<Config, ConfigDecodeError>)
    ensures !Truthy(doc) ==> r == Success(Config(map[], None))
    ensures Truthy(doc) && !doc.VObj? ==> r == Failure(DocumentNotAMapping)
    ensures Truthy(doc) ==> r == ConfigFromValue(doc)
  {
    ConfigFromValue(if Truthy(doc) then doc else VObj(map[]))
  }

  /** What `to_dict` writes is read back by the document step, `or {}`
      included. */
  lemma DocumentRoundTrip(c: Config)
    ensures ConfigOfDocument(ConfigToValue(c)) == Success(c)
  {
    var v := ConfigToValue(c);
    assert "default" in v.fields;
    ConfigRoundTrip(c);
  }

  /** `Config.to_dict`: inverse of `ConfigFromValue`. */
  function ConfigToValue(c: Config): (v: Value)
    ensures v.VObj? && v.fields.Keys == {"instances", "default"}
    ensures v.fields["instances"] == VObj(map name | name in c.instances :: InstanceToValue(c.instances[name]))
    ensures v.fields["default"] == if c.default.Some? then VStr(c.default.value) else VNull
  {
    var insts := map name | name in c.instances :: InstanceToValue(c.instances[name]);
    VObj(map["instances" := VObj(insts),
             "default" := if c.default.Some? then VStr(c.default.value) else VNull])
  }

  /** `Config.from_dict(cfg.to_dict()) == cfg`: what `save_config` writes,
      `load_config` reads back. */
  lemma ConfigRoundTrip(c: Config)
    ensures ConfigFromValue(ConfigToValue(c)) == Success(c)
  {
    var v := ConfigToValue(c);
    var insts := map name | name in c.instances :: InstanceToValue(c.instances[name]);
    InstancesDecode(c.instances);
    DecodeWellFormed(v.fields, insts, v.fields["default"]);
  }

  /** Decoding the asdict form of every profile gives the profiles back. */
  lemma InstancesDecode(instances: map<string, ConfigInstance>)
    ensures var insts := map name | name in instances :: InstanceToValue(instances[name]);
      && (forall name | name in insts :: InstanceFromValue(insts[name]).Some?)
      && (map name | name in insts :: InstanceFromValue(insts[name]).value) == instances
  {
    var insts := map name | name in instances :: InstanceToValue(instances[name]);
    assert forall name | name in insts :: InstanceFromValue(insts[name]) == Some(instances[name]);
  }

  /** The success path of `ConfigFromValue`, stated once for the round trip. */
  lemma DecodeWellFormed(fields: map<string, Value>, insts: map<string, Value>, dflt: Value)
    requires GetOr(fields, "instances", VObj(map[])) == VObj(insts)
    requires Get(fields, "default") == dflt && (dflt.VNull? || dflt.VStr?)
    requires forall name | name in insts :: InstanceFromValue(insts[name]).Some?
    ensures ConfigFromValue(VObj(fields)) == Success(Config(
      map name | name in insts :: InstanceFromValue(insts[name]).value,
      if dflt.VStr? then Some(dflt.s) else None))
  {
  }
}

=== FILE: values.dfy ===
/** The dynamically typed values the agent passes around: what a YAML or JSON
    document decodes to, and what a Python dict holds. */
module Values {

  /** A decoded YAML/JSON value. Floats, dates and other YAML scalars are not
      modelled. */
  datatype Value =
    | VNull
    | VBool(b: bool)
    | VInt(i: int)
    | VStr(s: string)
    | VList(items: seq<Value>)
    | VObj(fields: map<string, Value>)

  /** A dict with string keys, such as a monitor definition. */
  type Record = map<string, Value>

  /** Python truthiness: `None`, `False`, `0`, `""`, `[]` and `{}` are false. */
  predicate Truthy(v: Value) {
    match v
    case VNull => false
    case VBool(b) => b
    case VInt(i) => i != 0
    case VStr(s) => s != ""
    case VList(xs) => |xs| > 0
    case VObj(m) => |m| > 0
  }

  /** `d.get(key, fallback)`. */
  function GetOr(d: Record, key: string, fallback: Value): Value {
    if key in d then d[key] else fallback
  }

  /** `d.get(key)`, which yields `None` for a missing key. */
  function Get(d: Record, key: string): Value {
    GetOr(d, key, VNull)
  }
}

=== FILE: wrappers.dfy ===
/** Option and Result, the two failure-compatible wrappers the model uses in
    place of Python's `None` returns and raised exceptions. */
module Wrappers {

  /** An optional value: `None` plays the role of Python's `None`. */
  datatype Option<+T> = None | Some(value: T) {

    predicate IsFailure() {
      None?
    }

    function PropagateFailure<U>(): Option<U>
      requires None?
    {
      None
    }

    function Extract(): T
      requires Some?
    {
      value
    }
  }

  /** Either a value or the error the source would have raised. */
  datatype Result<+T, +E> = Success(value: T) | Failure(error: E) {

    predicate IsFailure() {
      Failure?
    }

    function PropagateFailure<U>(): Result<U, E>
      requires Failure?
    {
      Failure(error)
    }

    function Extract(): T
      requires Success?
    {
      value
    }
  }
}
